=== FILE: README.md ===
# KasirAI point of sale: a Dafny model

This project models the core of KasirAI, a point-of-sale system for Indonesian
small businesses. It covers two halves.

**The API side:**
- the five-step financial calculation: subtotal, discount, loyalty redemption, tax, grand total;
- points earned and the margin protection check;
- the in-memory cart handlers: create, add, remove, discount, loyalty, breakdown, finalize;
- discount-code validation, creation and deactivation;
- the request and response records.

**The web side:**
- the demo login screen and its role routing;
- the session guard every role screen runs on entry;
- the cashier screen's cart, with its totals and product filter;
- the pay-button flow with its two timers.

All operations are pure functions over immutable data.

- Money (`Decimal` in the API, `number` in the screens) is an exact `real`.
- Each `quantize(..., ROUND_HALF_UP)` becomes `Money.RoundHalfUp`, which rounds ties away from zero.
- Python's `int()` becomes `Money.Trunc`, which rounds toward zero.
- `Math.round` becomes `Money.MathRound`, which is floor(x + 1/2).
- Database reads are explicit parameters:
  - a product or customer row is an `Option`;
  - the discounts table is a sequence of rows.
- The cart store is a map from cart id to cart.
- Every handler returns the new map together with its reply, or an `HttpError`.

Modules:
- `Results`: `Option`, `Result`.
- `Money`: the rounding modes.
- `Schemas`: enums and records.
- `CalculationEngine`: the calculation engine.
- `Discounts`: the discount endpoints.
- `Transactions`: the cart handlers.
- `Session`: the stored session, the entry guard and logout.
- `Login`: the login screen.
- `PosCart`: the cashier screen's cart, totals and filter.
- `PosCheckout`: the payment flow.

## Model

| member | source | states |
|---|---|---|
| Money.RoundHalfUp | api/src/core/calculation_engine.py:53-55 | the integer result is within one half of the input, and a tie moves away from zero |
| Money.MathRound | web/src/app/pos/page.tsx:105 | the result is the integer in (x - 1/2, x + 1/2], so a tie rounds up |
| Money.Trunc | api/src/core/calculation_engine.py:139-149 | the result moves toward zero by less than one |
| Money.RoundWhole | api/src/core/calculation_engine.py:53-55 | rounding a whole amount leaves it unchanged |
| Money.RoundMonotone | api/src/core/calculation_engine.py:53-55 | half-up rounding never reverses the order of two amounts |
| Money.TruncMonotone | api/src/core/calculation_engine.py:139 | truncation never reverses the order of two amounts |
| Money.MathRoundIsHalfUp | web/src/app/pos/page.tsx:105 | on non-negative amounts the screen's rounding agrees with the API's half-up rounding |
| Schemas.RoleNameInjective | api/src/dto/schemas.py:37-40 | distinct roles have distinct wire names, so comparing the stored string identifies the role |
| CalculationEngine.SubtotalAppend | api/src/core/calculation_engine.py:49-51 | the cart subtotal of two item lists joined is the sum of their subtotals |
| CalculationEngine.ItemSubtotal | api/src/core/calculation_engine.py:53-55 | a line subtotal is whole and is price times quantity rounded half-up (the nearest integer, ties away from zero); it is exact when the price is whole |
| CalculationEngine.ApplyDiscount | api/src/core/calculation_engine.py:57-88 | discount plus remainder equals the subtotal; no type or value means no discount; the discount never exceeds the 30% ceiling; a percentage discount is the least of the rounded percentage, the ceiling and the cap whenever one is given, a zero cap included; a fixed discount is the least of value, subtotal and ceiling |
| CalculationEngine.DiscountWithinSubtotal | api/src/core/calculation_engine.py:57-88 | on a whole non-negative subtotal with sane parameters, both the discount and the remainder lie between zero and the subtotal |
| CalculationEngine.CeilingWithinSubtotal | api/src/core/calculation_engine.py:81-85 | the 30% ceiling lies between zero and the rounded subtotal |
| CalculationEngine.LoyaltyRedemption | api/src/core/calculation_engine.py:90-103 | with no cap the value is points times point value; with a cap it is the smaller of the two rounded half-up, and equal to it for a whole cap |
| CalculationEngine.LoyaltyStep | api/src/core/calculation_engine.py:209-219 | the amount before tax plus the redeemed value equals the post-discount subtotal; the amount is never negative; the redemption never exceeds that subtotal |
| CalculationEngine.Tax | api/src/core/calculation_engine.py:105-128 | exclusive: the tax base is the amount and the tax is the rate share rounded half-up; inclusive: base plus tax is the amount, and the base is the amount divided by one plus the rate, rounded half-up, ties away from zero |
| CalculationEngine.TaxOfThirtyThousand | api/src/core/calculation_engine.py:105-128 | under default settings, 30000 gives a tax base of 30000, rate 11 and tax 3300 |
| CalculationEngine.InclusiveTaxSplit | api/src/core/calculation_engine.py:117-121 | with a non-negative rate, the inclusive base and tax each lie between zero and the amount |
| CalculationEngine.Multiplier | api/src/core/calculation_engine.py:142-147 | the member-tier multiplier is between 1 and 2 |
| CalculationEngine.PointsEarned | api/src/core/calculation_engine.py:130-149 | points are never negative, and a regular member earns exactly one point per full block of the points unit |
| CalculationEngine.BlockBounds | api/src/core/calculation_engine.py:139 | the truncated block count times the unit is at most the amount, and one more block exceeds it |
| CalculationEngine.PointsTierOrder | api/src/core/calculation_engine.py:142-149 | a higher tier never earns fewer points than a lower one for the same amount |
| CalculationEngine.MarginCheck | api/src/core/calculation_engine.py:151-179 | zero cost always passes; zero revenue with a cost is the division by zero; otherwise it passes exactly when profit is at least the minimum share of revenue, and a refusal carries the failing margin |
| CalculationEngine.MarginScaled | api/src/core/calculation_engine.py:172-175 | the percentage test is equivalent to the multiplied-out test, with the inequality flipped for negative revenue |
| CalculationEngine.Breakdown | api/src/core/calculation_engine.py:181-249 | fails exactly when margin validation is on and the margin check fails; otherwise the gross is the item subtotal, discount plus remainder is the gross, the redemption is the loyalty step's on that remainder and stays within it, base, rate and tax are the tax step's on the amount before tax, the grand total is base plus tax (exclusive) or the amount before tax (inclusive), and the points are those earned on the amount before tax |
| Discounts.ActiveMatches | api/src/api/discounts.py:50-52 | a row is returned exactly when it is in the table, belongs to the tenant, has the code and is active |
| Discounts.Lookup | api/src/api/discounts.py:50-55 | found exactly when one active row has the tenant and code, and then it is that row; in a table with unique codes per tenant an active row with the code is always found |
| Discounts.OnlyRowMatches | api/src/api/discounts.py:50-52 | when only one row has the tenant and code and it is active, the matches are exactly that row |
| Discounts.DiscountValue | api/src/api/discounts.py:77-83 | a percentage gives the subtotal share, capped by a non-zero maximum; a fixed value gives the smaller of value and subtotal |
| Discounts.ValidateDiscount | api/src/api/discounts.py:45-91 | unknown code is 404; not-yet-valid is reported before expiry; it succeeds exactly when the row is in its window, not exhausted and the minimum purchase is met, returning the row's name, type and value |
| Discounts.FixedValueWithinSubtotal | api/src/api/discounts.py:82-83 | a non-negative fixed discount value lies between zero and a non-negative subtotal |
| Discounts.NewDiscount | api/src/api/discounts.py:108-116 | a created row carries the request's tenant and code and the new id, with usage count 0, and is active |
| Discounts.CreateDiscount | api/src/api/discounts.py:94-118 | refused with 400 exactly when the tenant already has the code; otherwise the table grows by the new row (the insert's encoding failures are listed under "Left out") |
| Discounts.CreateKeepsWellFormed | api/src/api/discounts.py:94-118 | creation keeps codes unique per tenant and ids unique |
| Discounts.CreateThenLookup | api/src/api/discounts.py:94-118 | a just-created code is found by the lookup |
| Discounts.NoActiveMatches | api/src/api/discounts.py:50-52 | when every row with the tenant and code is inactive, nothing matches |
| Discounts.MatchesAppend | api/src/api/discounts.py:50-52 | matching over a table with a row appended is matching over the table, then over that row |
| Discounts.Deactivated | api/src/api/discounts.py:145-147 | only the row with the id becomes inactive; every other row is unchanged |
| Discounts.DeactivateDiscount | api/src/api/discounts.py:140-152 | 404 exactly when no row has the id; otherwise only that row's active flag is cleared |
| Discounts.DeactivateHidesCode | api/src/api/discounts.py:140-152 | deactivating a row keeps the table well formed and its code can no longer be found |
| Discounts.ValidateAfterDeactivate | api/src/api/discounts.py:45-55 | after deactivation, validating the code gives 404 |
| Transactions.CreateCart | api/src/api/transactions.py:40-58 | files an empty cart under the new id, with no customer, no discount, zero points and the regular tier, and leaves other carts alone |
| Transactions.IndexOf | api/src/api/transactions.py:79-84 | finds the first line for the product, or reports that none exists |
| Transactions.AddLine | api/src/api/transactions.py:79-102 | an existing line grows by the quantity and its subtotal becomes price times the new quantity; otherwise a new line goes at the end |
| Transactions.AddLineKeepsUnique | api/src/api/transactions.py:79-102 | adding keeps one line per product |
| Transactions.AddLineQuantity | api/src/api/transactions.py:79-102 | adding raises the product's quantity by the requested amount and leaves others unchanged |
| Transactions.QuantityOfAppend | api/src/api/transactions.py:93-101 | appending a line adds its quantity to that product only |
| Transactions.QuantityOfUpdate | api/src/api/transactions.py:81-83 | replacing one line changes only that product's quantity, by the difference |
| Transactions.AddItem | api/src/api/transactions.py:61-102 | unknown cart or product is 404; a new line for a product whose SKU is NULL is a 500; otherwise it succeeds and agrees with the SKU-defaulting handler |
| Transactions.AddItemSkuDefaulted | api/src/api/transactions.py:61-102 | unknown cart or product is 404; otherwise the line is added and the message says whether it was updated or added |
| Transactions.NullSkuRejected | api/src/api/transactions.py:93-101 | a product without a SKU that is not yet in the cart fails with 500, where defaulting the SKU to the empty string adds it |
| Transactions.RemoveLines | api/src/api/transactions.py:112 | no line for the product remains, and the cart does not grow |
| Transactions.RemoveLinesMembers | api/src/api/transactions.py:112 | a line survives exactly when it was there and is for another product |
| Transactions.RemoveLinesQuantity | api/src/api/transactions.py:112 | the product's quantity drops to zero and every other quantity is kept |
| Transactions.RemoveLinesSplice | api/src/api/transactions.py:112 | in a cart with one line per product, removal cuts out exactly that product's line |
| Transactions.RemoveLinesKeepsUnique | api/src/api/transactions.py:112 | removal keeps one line per product |
| Transactions.RemoveItem | api/src/api/transactions.py:105-114 | unknown cart is 404; otherwise the product's lines are gone and nothing else changes |
| Transactions.ApplyDiscountCode | api/src/api/transactions.py:117-155 | unknown cart, or a code with no unique active match, is 404; an exhausted code is 400; it succeeds exactly when usage and minimum purchase allow, recording code, type, value and any non-zero cap |
| Transactions.ExpiredCodeAccepted | api/src/api/transactions.py:126-153 | an expired active code is attached to the cart while the validation endpoint refuses it |
| Transactions.ApplyDiscountCodeChecked | api/src/api/discounts.py:59-64 | the cart accepts a code exactly when the validation endpoint accepts it for the cart's subtotal, with the same 400 messages |
| Transactions.CheckedAgreesInsideWindow | api/src/api/transactions.py:117-155 | inside the validity window the checked handler and the original agree |
| Transactions.ApplyLoyalty | api/src/api/transactions.py:158-188 | unknown customer is 404; more points than the customer holds is 400; a covered request on a row whose tier is NULL is 500, because the column is always present and the enum conversion of NULL raises; it succeeds exactly when the points are covered and the tier is set, and then records customer, points and tier and reports the points left, which are never negative |
| Transactions.NullTierRejected | api/src/api/transactions.py:181 | a customer row with a NULL tier is refused with 500 even when the points are covered |
| Transactions.MarginHttpError | api/src/api/transactions.py:213-215 | a margin refusal is a 400 and the uncaught division by zero is a 500 |
| Transactions.GetBreakdown | api/src/api/transactions.py:191-215 | unknown cart is 404 and an empty cart 400; otherwise it is the engine's breakdown with margin checking on, so the grand total is base plus tax and the discount identity holds |
| Transactions.NewCartBreakdownIsEmpty | api/src/api/transactions.py:197-200 | a fresh cart's breakdown is refused as empty |
| Transactions.FinalizeTransaction | api/src/api/transactions.py:218-318 | errors follow the breakdown's; cash with a non-zero amount succeeds exactly when it covers the grand total, and the change is the difference; status is paid for cash and pending otherwise; success removes the cart |
| Transactions.HandlersKeepWellFormed | api/src/api/transactions.py:61-318 | every handler that succeeds, as written and corrected, keeps one line per product in every cart |
| Session.RouteFor | web/src/app/page.tsx:38-42 | no role lands on the login route |
| Session.RoutesDistinct | web/src/app/page.tsx:38-42 | different roles land on different screens |
| Session.SignIn | web/src/app/page.tsx:37-42 | goes to the role's screen; afterwards a role screen admits the user exactly when the stored role is that screen's role; other storage entries are kept, and logging out leaves the storage as before minus the session |
| Session.EntryGuard | web/src/app/pos/page.tsx:59-64 | admits exactly when a stored session has the screen's role, leaving the browser as it is; otherwise it goes to the login route and renders nothing |
| Session.Logout | web/src/app/pos/page.tsx:115 | removes only the "user" entry and goes to the login route |
| Session.LogoutThenGuardRedirects | web/src/app/admin/page.tsx:39-50 | after logout every role screen turns the visitor away |
| Login.HandleSubmit | web/src/app/page.tsx:28-47 | matching credentials store `{email, role, name}`, route by role and leave the error clear; otherwise the error is shown, loading stops and nothing is stored |
| Login.QuickLogin | web/src/app/page.tsx:49-58 | stores a session with the chosen role and goes to that role's screen |
| Login.QuickLoginAgreesWithSubmit | web/src/app/page.tsx:6-10 | quick login leaves the browser exactly as a password sign-in with that role's demo credentials would |
| Login.SignedInPassesOwnGuard | web/src/app/dashboard/page.tsx:38-43 | a signed-in user passes their own screen's guard and no other |
| Login.EmailIsCaseSensitive | web/src/app/page.tsx:34-36 | a differently cased email is refused |
| PosCart.AddToCart | web/src/app/pos/page.tsx:71-77 | a present product gains a unit in place; an absent one is appended with one unit; the cart stays well formed |
| PosCart.UpdateQty | web/src/app/pos/page.tsx:79-87 | an absent product leaves the cart unchanged; no new product appears; quantities stay positive; in a well-formed cart the product's line keeps its position with the new quantity, or is cut out with the others closing up in order |
| PosCart.RemoveFromCart | web/src/app/pos/page.tsx:89 | the product disappears; an absent product changes nothing; the remaining lines are a subsequence of the cart in order; in a well-formed cart exactly the product's line is cut out |
| PosCart.OneLinePerProduct | web/src/app/pos/page.tsx:71-89 | a well-formed cart has at most one line per product |
| PosCart.UnitsAppend | web/src/app/pos/page.tsx:75-107 | an appended line adds its units, its count and its price times quantity |
| PosCart.BumpUnits | web/src/app/pos/page.tsx:74 | incrementing adds one unit per matching line to that product only |
| PosCart.AddToCartUnits | web/src/app/pos/page.tsx:71-77 | adding puts exactly one more unit of the product in the cart, and the badge count grows by one |
| PosCart.AddTimes | web/src/app/pos/page.tsx:71-77 | repeated adds keep the cart well formed |
| PosCart.AddTimesFromEmpty | web/src/app/pos/page.tsx:71-77 | from an empty cart, n adds give one line of quantity n |
| PosCart.AddTimesUnits | web/src/app/pos/page.tsx:71-77 | n adds add n units of that product and nothing else |
| PosCart.UpdateQtyKeepsWellFormed | web/src/app/pos/page.tsx:79-87 | the quantity buttons keep one positive line per product |
| PosCart.UpdateQtyUnits | web/src/app/pos/page.tsx:79-87 | the product's units move by delta, or drop to zero with the line gone when they would not stay positive; other products are untouched |
| PosCart.RemoveFromCartLines | web/src/app/pos/page.tsx:89 | every line left after removal was a line of the cart |
| PosCart.RemoveFromCartUnits | web/src/app/pos/page.tsx:89 | removal takes all of the product's units and nothing else |
| PosCart.RemoveKeepsWellFormed | web/src/app/pos/page.tsx:89 | removal keeps the cart well formed |
| PosCart.RemoveIsUpdateToZero | web/src/app/pos/page.tsx:79-89 | removing a product equals lowering it by its whole quantity |
| PosCart.UnitsOfLine | web/src/app/pos/page.tsx:71-89 | in a well-formed cart a product's units are the quantity on its line |
| PosCart.AddToCartSubtotal | web/src/app/pos/page.tsx:71-104 | adding a product raises the subtotal by its price |
| PosCart.Tax | web/src/app/pos/page.tsx:105 | the tax is 11% of the subtotal, rounded as `Math.round` rounds |
| PosCart.CartTotals | web/src/app/pos/page.tsx:104-107 | the total is 111% of the subtotal within half a rupiah; with non-negative prices the tax lies between zero and the subtotal; the badge is zero exactly when the cart is empty |
| PosCart.SubtotalNonNegative | web/src/app/pos/page.tsx:104 | non-negative prices and positive quantities give a non-negative subtotal |
| PosCart.CartCountCoversLines | web/src/app/pos/page.tsx:107 | the badge count is at least the number of lines |
| PosCart.TaxWithinSubtotal | web/src/app/pos/page.tsx:105 | the tax on a non-negative whole subtotal is between zero and the subtotal |
| PosCart.EmptyCartTotals | web/src/app/pos/page.tsx:104-107 | an empty cart shows zero everywhere |
| PosCart.TotalsExample | web/src/app/pos/page.tsx:27-107 | one coffee and two iced teas give 30000, 3300 tax and 33300 to pay |
| PosCart.QuantityExample | web/src/app/pos/page.tsx:71-87 | three coffees, then one minus press, leave two coffees costing 36000 |
| PosCart.LowerChar | web/src/app/pos/page.tsx:110 | A to Z map to a to z; every other character is kept |
| PosCart.Lower | web/src/app/pos/page.tsx:110 | lower-casing keeps the length and lower-cases each character |
| PosCart.FilterProducts | web/src/app/pos/page.tsx:109-113 | a product is shown exactly when it is in the catalogue and matches the search and the tab |
| PosCart.FilterKeepsOrder | web/src/app/pos/page.tsx:109-113 | the shown products keep catalogue order |
| PosCart.EmptySearchShowsAll | web/src/app/pos/page.tsx:109-113 | an empty search under "Semua" shows every product |
| PosCart.UnusedCategoryShowsNothing | web/src/app/pos/page.tsx:111 | a tab no product belongs to shows nothing |
| PosCart.PromoShowsNothing | web/src/app/pos/page.tsx:26-43 | the "Promo" tab is empty because no product carries that category |
| PosCart.LowerIdempotent | web/src/app/pos/page.tsx:110 | lower-casing twice is lower-casing once |
| PosCart.SearchIgnoresCase | web/src/app/pos/page.tsx:110 | lower-casing the search text does not change the result |
| PosCart.PrefixSearchFinds | web/src/app/pos/page.tsx:110-112 | a product whose name starts with the search text, ignoring case, is shown under "Semua" |
| PosCart.CoffeeSearchExample | web/src/app/pos/page.tsx:27-110 | typing "KOPI" finds the palm-sugar coffee |
| PosCheckout.SeedOrderNumber | web/src/app/pos/page.tsx:67 | the first order number has four digits, from 1000 to 9999 |
| PosCheckout.Enter | web/src/app/pos/page.tsx:59-69 | only a cashier session opens the screen, and it opens with an empty cart, idle, nothing scheduled and a four-digit order number |
| PosCheckout.Step | web/src/app/pos/page.tsx:71-102 | adding a product is `AddToCart` at any time; a quantity change or removal is `UpdateQty` or `RemoveFromCart` when the cart panel is reachable, and a pointer press on them while success shows is ignored; cart edits leave both flags, the scheduled callbacks and the order number alone; a payment starts only by the pay button, on a non-empty cart with no payment in progress, and the pointer only when success is not shown; success is set only by the payment callback; pay and the payment callback keep the cart; the success callback clears the cart and is the only event that advances the order number, by one; the cart stays well formed |
| PosCheckout.RunInvariant | web/src/app/pos/page.tsx:71-102 | over any event sequence the cart stays well formed and the order number grows by at most one per event |
| PosCheckout.CheckoutCycle | web/src/app/pos/page.tsx:91-102 | pay by either input, then the two callbacks, take an idle non-empty cart through processing and success, keeping the cart, then clear it and advance the order number |
| PosCheckout.EmptyCartCannotPay | web/src/app/pos/page.tsx:399 | pay does nothing on an empty cart |
| PosCheckout.NoDoubleSubmit | web/src/app/pos/page.tsx:399 | pay does nothing, by any input, while a payment is in progress |
| PosCheckout.PointerPayBlockedDuringSuccess | web/src/app/pos/page.tsx:418-419 | a pointer press on pay does nothing while the success overlay shows |
| PosCheckout.EmptiedDuringPayment | web/src/app/pos/page.tsx:89-102 | a line removed while the payment runs is gone and the payment still succeeds, on an empty cart |
| PosCheckout.KeyboardPayDuringSuccess | web/src/app/pos/page.tsx:398-419 | a keyboard press on pay while success shows sets both flags and schedules a second payment |
| PosCheckout.KeyboardPayDoubleCounts | web/src/app/pos/page.tsx:91-102 | after that press the first sale's callback empties the cart while the second payment runs, and one sale advances the order number by two |
| PosCheckout.StepGuarded | web/src/app/pos/page.tsx:399 | with pay also disabled while success shows, a screen running at most one payment stays so and moves through idle, processing, success in order |
| PosCheckout.StepKeepsConsistent | web/src/app/pos/page.tsx:71-102 | every event other than pay during success keeps at most one payment running and the phases in order |
| PosCheckout.GuardedAgrees | web/src/app/pos/page.tsx:399 | the corrected screen differs from the written one exactly on a keyboard press of the enabled pay button while success shows |
| PosCheckout.RunGuardedConsistent | web/src/app/pos/page.tsx:91-102 | with the corrected guard every run keeps at most one payment running |
| PosCheckout.KeyboardPayGuarded | web/src/app/pos/page.tsx:91-102 | the run that double-counts as written advances the order number by one with the corrected guard |

## Left out

- Database access (Supabase) is not modelled. Product and customer rows are `Option` parameters, and the discounts table is a sequence.
- `.single()` on the discounts table is modelled as "exactly one row matches"; zero or several matches read as not found.
- `update_discount`, `list_discounts` and `get_discount` are not modelled: they are plain table reads and writes.
- The Coretax export and `generate_invoice_number` are not modelled; the invoice number and transaction id are parameters of `FinalizeTransaction`.
- Persisting the transaction and its items is not modelled.
- The `update_customer_points` remote call is not modelled; it runs in the database.
- Fresh ids (uuid) and clock readings are parameters; `created_at` is an integer instant.
- Discount validity times are integer instants. The source compares ISO timestamp strings by character, which agrees with time order only when both strings use the same format.
- Float conversions (`float(...)`, `Decimal(str(...))`) are taken as exact.
- Member-tier multipliers are the exact rationals 1, 6/5, 3/2 and 2. The source multiplies by the floats 1.2 and 1.5 before truncating.
- Error details that format numbers (the margin percentage, the minimum purchase amount) are fixed strings.
- Discounts.CreateDiscount: promises success for every fresh code, but the source passes the request's `model_dump()` to the insert after converting only `value`, `min_purchase` and a truthy `max_discount` to float (api/src/api/discounts.py:107-116). A `valid_from` or `valid_until` stays a `datetime` and a zero `max_discount` stays a `Decimal`, and if the database client's JSON encoder refuses them the request ends in a 500 with nothing inserted. That client's encoder is not part of this model, so this failure is not modelled.
- JSON encoding, HTTP routing, React rendering, locale formatting, the clock ticker and the mobile cart drawer are not modelled.
- The payment timers are events, not durations. A pending callback may run at any moment and in any order, which covers every timing of the 1.5 s and 2 s delays.
- `toLowerCase` is modelled for ASCII letters only. Every catalogue name is ASCII, but the search text is typed by the user: a character outside ASCII that has a lower-case mapping (such as the Kelvin sign, which lower-cases to "k") is kept unchanged by the model, so for such input the model may hide a product the screen shows.
- Local storage holds users that are already parsed. A stored "user" value that is not valid JSON, where `JSON.parse` throws, or that parses to `null`, where reading `.role` throws (web/src/app/pos/page.tsx:61-62), is not modelled.
- Transactions.ApplyLoyalty: on the NULL-tier 500 the source has already written the customer id and the redeemed points into the in-memory cart before the enum conversion raises; error replies in the model carry no cart map, so that partial write is not stated. A tier string outside the enum, which raises the same way, is not representable in the model's customer row.
- Pydantic field validation is expressed in types: quantity is at least 1 and points to redeem is a `nat`.
- CalculationEngine.Tax: requires the inclusive rate not to be -100%, where the source would divide by zero. The default rate is 11%.
- CalculationEngine.Breakdown: requires a configuration with a non-zero points unit and a valid inclusive rate, which every caller uses.
- Transactions.HandlersKeepWellFormed: states add-item only for a product row whose id is the requested one, which is what the product query returns.
- PosCheckout.Step: quantity changes accept any delta; the screen's buttons send +1 and -1.

## Findings

| source | as written | input that shows it | evidently intended | confidence | as-written member | corrected member |
|---|---|---|---|---|---|---|
| api/src/api/transactions.py:126-153 | `apply_discount` attaches an active code after checking only the usage limit and minimum purchase | an active code whose `valid_until` has passed: the cart accepts it, while `validate_discount` answers "Discount expired" | the cart applies the same validity-window checks as `validate_discount` (api/src/api/discounts.py:59-64) | medium, not executed | Transactions.ExpiredCodeAccepted | Transactions.ApplyDiscountCodeChecked |
| api/src/api/transactions.py:95 | the new line's SKU is `product.get("sku", "")`, whose default applies only when the key is missing; a row with a NULL SKU yields `None`, which the `product_sku: str` field (api/src/dto/schemas.py:48) rejects | adding a product created without a SKU (allowed by `sku: Optional[str] = None`, api/src/dto/schemas.py:108) to a cart that does not hold it: the request fails with 500 | a missing SKU is stored as the empty string | medium, not executed | Transactions.NullSkuRejected | Transactions.AddItemSkuDefaulted |
| web/src/app/pos/page.tsx:399 | the pay button is disabled only for an empty cart or a payment in progress; the success overlay (lines 418-419) blocks the pointer but not the keyboard | pay by pointer, wait for the success overlay, then within its 2 s window Tab to the pay button and press Enter: a second payment starts on the same cart, the first sale's callback empties the cart mid-payment, and the order number advances twice | pay is disabled while success shows as well | medium, not executed | PosCheckout.KeyboardPayDoubleCounts | PosCheckout.StepGuarded |

=== FILE: calculation_engine.dfy ===
/** The server-side money pipeline of the point-of-sale API:
    subtotal -> discount -> loyalty redemption -> tax -> grand total -> points.
    Every `Decimal` is an exact `real`; every quantize step is `RoundHalfUp`. */
module CalculationEngine {
  import opened Results
  import opened Money
  import opened Schemas

  /** The engine's constructor parameters; the defaults are the production
      settings (11% exclusive tax, one point per 10000, 100 per point,
      discounts capped at 30%). */
  datatype Config = Config(
    tax_rate: real := 11.0,
    tax_inclusive: bool := false,
    points_per_amount: int := 10000,
    point_value: int := 100,
    max_discount_pct: real := 30.0)

  /** The configurations the engine can run without dividing by zero. */
  predicate ValidConfig(cfg: Config) {
    && cfg.points_per_amount != 0
    && (cfg.tax_inclusive ==> cfg.tax_rate != -100.0)
  }

  /** The margin floor `calculate_breakdown` enforces, in percent. */
  const MinMarginPct: real := 5.0

  /** Why the margin check refused a transaction. `ZeroRevenue` is the
      division by zero the source raises when items carry a cost but no
      revenue; it is not a `MarginProtectionError`. */
  datatype MarginError = MarginBelowMinimum(margin: real) | ZeroRevenue

  // ---------------------------------------------------------------- step 1

  /** Gross sales: the sum of the line subtotals. */
  function Subtotal(items: seq<CartItem>): real {
    if |items| == 0 then 0.0 else items[0].subtotal + Subtotal(items[1..])
  }

  lemma {:induction false} SubtotalAppend(a: seq<CartItem>, b: seq<CartItem>)
    ensures Subtotal(a + b) == Subtotal(a) + Subtotal(b)
  {
    if |a| == 0 {
      assert a + b == b;
    } else {
      assert (a + b)[1..] == a[1..] + b;
      SubtotalAppend(a[1..], b);
    }
  }

  lemma WholeTimesInt(x: real, n: int)
    requires IsWhole(x)
    ensures IsWhole(x * n as real)
  {
    var k := x.Floor;
    assert x * n as real == (k * n) as real;
  }

  /** A line subtotal: price times quantity, rounded to whole rupiah. */
  function ItemSubtotal(price: real, quantity: int): (r: real)
    ensures IsWhole(r)
    ensures price * quantity as real - 0.5 <= r <= price * quantity as real + 0.5
    ensures price * quantity as real >= 0.0 ==> price * quantity as real - 0.5 < r
    ensures price * quantity as real < 0.0 ==> r < price * quantity as real + 0.5
    ensures IsWhole(price) ==> r == price * quantity as real
  {
    if IsWhole(price) then
      WholeTimesInt(price, quantity);
      RoundWhole(price * quantity as real);
      RoundHalfUp(price * quantity as real) as real
    else
      RoundHalfUp(price * quantity as real) as real
  }

  // ---------------------------------------------------------------- step 2

  /** The discount ceiling: `max_discount_pct` percent of the subtotal, rounded. */
  function MaxAllowed(cfg: Config, subtotal: real): int {
    RoundHalfUp(subtotal * cfg.max_discount_pct / 100.0)
  }

  /** A rounded percentage of the subtotal. */
  function PercentOf(subtotal: real, pct: real): int {
    RoundHalfUp(subtotal * pct / 100.0)
  }

  /** Returns (discount amount, subtotal after discount). The discount is the
      smallest of the caps that apply to its kind. */
  function ApplyDiscount(cfg: Config, subtotal: real, kind: Option<DiscountType>,
                         value: Option<real>, maxDiscount: Option<real>): (r: (real, real))
    ensures r.0 + r.1 == subtotal
    ensures kind.None? || value.None? ==> r == (0.0, subtotal)
    ensures kind.Some? && value.Some? ==> r.0 <= MaxAllowed(cfg, subtotal) as real
    ensures kind == Some(PERCENTAGE) && value.Some? ==>
      && r.0 <= PercentOf(subtotal, value.value) as real
      && (maxDiscount.Some? ==> r.0 <= maxDiscount.value)
      && (|| r.0 == PercentOf(subtotal, value.value) as real
          || (maxDiscount.Some? && r.0 == maxDiscount.value)
          || r.0 == MaxAllowed(cfg, subtotal) as real)
    ensures kind == Some(FIXED) && value.Some? ==>
      && r.0 <= value.value
      && r.0 <= subtotal
      && (r.0 == value.value || r.0 == subtotal || r.0 == MaxAllowed(cfg, subtotal) as real)
  {
    if kind.None? || value.None? then (0.0, subtotal)
    else
      var requested :=
        if kind.value == PERCENTAGE then
          var pct := PercentOf(subtotal, value.value) as real;
          if maxDiscount.Some? then Min(pct, maxDiscount.value) else pct
        else
          Min(value.value, subtotal);
      var amount := Min(requested, MaxAllowed(cfg, subtotal) as real);
      (amount, subtotal - amount)
  }

  /** On a whole, non-negative subtotal with non-negative discount data and a
      ceiling of at most 100%, the discount lies between zero and the subtotal. */
  lemma DiscountWithinSubtotal(cfg: Config, subtotal: real, kind: Option<DiscountType>,
                               value: Option<real>, maxDiscount: Option<real>)
    requires IsWhole(subtotal) && subtotal >= 0.0
    requires 0.0 <= cfg.max_discount_pct <= 100.0
    requires value.Some? ==> value.value >= 0.0
    requires maxDiscount.Some? ==> maxDiscount.value >= 0.0
    ensures var r := ApplyDiscount(cfg, subtotal, kind, value, maxDiscount);
      0.0 <= r.0 <= subtotal && 0.0 <= r.1 <= subtotal
  {
    if kind.Some? && value.Some? {
      CeilingWithinSubtotal(cfg, subtotal);
      RoundWhole(subtotal);
      PercentNonNegative(subtotal, value.value);
    }
  }

  /** A ceiling of at most 100% lies between zero and the rounded subtotal. */
  lemma CeilingWithinSubtotal(cfg: Config, subtotal: real)
    requires subtotal >= 0.0
    requires 0.0 <= cfg.max_discount_pct <= 100.0
    ensures 0 <= MaxAllowed(cfg, subtotal) <= RoundHalfUp(subtotal)
  {
    FractionBelow(subtotal, cfg.max_discount_pct);
    RoundMonotone(subtotal * cfg.max_discount_pct / 100.0, subtotal);
  }

  lemma FractionBelow(s: real, pct: real)
    requires s >= 0.0 && 0.0 <= pct <= 100.0
    ensures 0.0 <= s * pct / 100.0 <= s
  {
    assert s * pct <= s * 100.0;
  }

  lemma PercentNonNegative(subtotal: real, pct: real)
    requires subtotal >= 0.0 && pct >= 0.0
    ensures PercentOf(subtotal, pct) >= 0
  {
    assert subtotal * pct >= 0.0;
  }

  // ---------------------------------------------------------------- step 3

  /** The money value of redeemed points, optionally capped, rounded. */
  function LoyaltyRedemption(cfg: Config, points: int, cap: Option<real>): (r: real)
    ensures IsWhole(r)
    ensures cap.None? ==> r == (points * cfg.point_value) as real
    ensures cap.Some? ==>
      var capped := Min((points * cfg.point_value) as real, cap.value);
      && capped - 0.5 <= r <= capped + 0.5
      && (capped >= 0.0 ==> capped - 0.5 < r)
      && (capped < 0.0 ==> r < capped + 0.5)
    ensures cap.Some? && IsWhole(cap.value) ==>
      r == Min((points * cfg.point_value) as real, cap.value)
  {
    var raw := (points * cfg.point_value) as real;
    var v := if cap.Some? then Min(raw, cap.value) else raw;
    RoundWhole(raw);
    if cap.Some? && IsWhole(cap.value) then RoundWhole(cap.value); RoundHalfUp(v) as real
    else RoundHalfUp(v) as real
  }

  /** Step 3 of the breakdown: redeem at most what is left after the discount,
      clamping the amount before tax at zero. Returns (loyalty, amount before tax). */
  function LoyaltyStep(cfg: Config, afterDiscount: real, points: int): (r: (real, real))
    ensures r.0 + r.1 == afterDiscount
    ensures r.1 >= 0.0
    ensures r.0 <= afterDiscount
    ensures r.0 == Min(LoyaltyRedemption(cfg, points, Some(afterDiscount)), afterDiscount)
  {
    var loyalty := LoyaltyRedemption(cfg, points, Some(afterDiscount));
    var amount := afterDiscount - loyalty;
    if amount < 0.0 then (afterDiscount, 0.0) else (loyalty, amount)
  }

  // ---------------------------------------------------------------- step 4

  /** Returns (dpp, tax rate, tax amount). Exclusive tax is added on top of the
      amount; inclusive tax is extracted from it, so dpp + tax is the amount. */
  function Tax(cfg: Config, amount: real): (r: (real, real, real))
    requires cfg.tax_inclusive ==> cfg.tax_rate != -100.0
    ensures r.1 == cfg.tax_rate
    ensures !cfg.tax_inclusive ==>
      && r.0 == amount
      && IsWhole(r.2)
      && amount * cfg.tax_rate / 100.0 - 0.5 <= r.2 <= amount * cfg.tax_rate / 100.0 + 0.5
      && (amount * cfg.tax_rate >= 0.0 ==> amount * cfg.tax_rate / 100.0 - 0.5 < r.2)
      && (amount * cfg.tax_rate < 0.0 ==> r.2 < amount * cfg.tax_rate / 100.0 + 0.5)
    ensures cfg.tax_inclusive ==>
      && r.0 + r.2 == amount
      && IsWhole(r.0)
      && amount / (1.0 + cfg.tax_rate / 100.0) - 0.5 <= r.0
      && r.0 <= amount / (1.0 + cfg.tax_rate / 100.0) + 0.5
      && (amount / (1.0 + cfg.tax_rate / 100.0) >= 0.0 ==> amount / (1.0 + cfg.tax_rate / 100.0) - 0.5 < r.0)
      && (amount / (1.0 + cfg.tax_rate / 100.0) < 0.0 ==> r.0 < amount / (1.0 + cfg.tax_rate / 100.0) + 0.5)
  {
    if cfg.tax_inclusive then
      var divisor := 1.0 + cfg.tax_rate / 100.0;
      var dpp := RoundHalfUp(amount / divisor) as real;
      (dpp, cfg.tax_rate, amount - dpp)
    else
      (amount, cfg.tax_rate, RoundHalfUp(amount * cfg.tax_rate / 100.0) as real)
  }

  /** With the default settings 30000 carries 3300 of tax. */
  lemma TaxOfThirtyThousand()
    ensures Tax(Config(), 30000.0) == (30000.0, 11.0, 3300.0)
  {
    assert 30000.0 * 11.0 / 100.0 == 3300.0;
    RoundWhole(3300.0);
  }

  /** Extracting a non-negative rate from a whole, non-negative amount leaves a
      dpp and a tax that are both non-negative. */
  lemma InclusiveTaxSplit(cfg: Config, amount: real)
    requires cfg.tax_inclusive && cfg.tax_rate >= 0.0
    requires IsWhole(amount) && amount >= 0.0
    ensures var r := Tax(cfg, amount); 0.0 <= r.0 <= amount && 0.0 <= r.2 <= amount
  {
    var divisor := 1.0 + cfg.tax_rate / 100.0;
    assert divisor >= 1.0;
    assert amount / divisor <= amount by {
      assert amount / divisor * divisor == amount;
    }
    RoundMonotone(amount / divisor, amount);
    RoundWhole(amount);
  }

  // ---------------------------------------------------------------- points

  /** The tier multiplier, as the exact rational the source's float denotes. */
  function Multiplier(member: MemberType): (m: real)
    ensures 1.0 <= m <= 2.0
  {
    match member
    case REGULAR => 1.0
    case SILVER => 1.2
    case GOLD => 1.5
    case PLATINUM => 2.0
  }

  /** Points earned on the amount before tax: whole blocks of
      `points_per_amount`, times the tier multiplier, truncated. */
  function PointsEarned(cfg: Config, amount: real, member: MemberType): (r: int)
    requires cfg.points_per_amount != 0
    ensures amount >= 0.0 && cfg.points_per_amount > 0 ==> r >= 0
    ensures amount >= 0.0 && cfg.points_per_amount > 0 && member == REGULAR ==>
      (r * cfg.points_per_amount) as real <= amount < ((r + 1) * cfg.points_per_amount) as real
  {
    var ppa := cfg.points_per_amount as real;
    var base := Trunc(amount / ppa);
    if amount >= 0.0 && cfg.points_per_amount > 0 then
      BlockBounds(amount, cfg.points_per_amount, base);
      Trunc(base as real * Multiplier(member))
    else
      Trunc(base as real * Multiplier(member))
  }

  lemma BlockBounds(amount: real, ppa: int, base: int)
    requires amount >= 0.0 && ppa > 0
    requires base as real <= amount / ppa as real < base as real + 1.0
    ensures (base * ppa) as real <= amount < ((base + 1) * ppa) as real
  {
    var p := ppa as real;
    var q := amount / p;
    assert q * p == amount;
    assert (base * ppa) as real == base as real * p;
    assert ((base + 1) * ppa) as real == (base as real + 1.0) * p;
    assert q < base as real + 1.0;
    var c := base as real + 1.0;
    ScaleLt(p, q, c);
    assert q * p < c * p;
    assert amount < c * p;
  }

  lemma ScaleLt(a: real, b: real, c: real)
    requires a > 0.0 && b < c
    ensures b * a < c * a
  {
  }

  /** Higher tiers never earn fewer points on the same amount. */
  lemma PointsTierOrder(cfg: Config, amount: real)
    requires cfg.points_per_amount > 0 && amount >= 0.0
    ensures PointsEarned(cfg, amount, REGULAR) <= PointsEarned(cfg, amount, SILVER)
    ensures PointsEarned(cfg, amount, SILVER) <= PointsEarned(cfg, amount, GOLD)
    ensures PointsEarned(cfg, amount, GOLD) <= PointsEarned(cfg, amount, PLATINUM)
  {
    var b := Trunc(amount / cfg.points_per_amount as real) as real;
    assert b >= 0.0;
    TruncMonotone(b * 1.0, b * 1.2);
    TruncMonotone(b * 1.2, b * 1.5);
    TruncMonotone(b * 1.5, b * 2.0);
  }

  // ---------------------------------------------------------------- margin

  /** Cost of the goods: unit cost (zero when unknown) times quantity. */
  function TotalCost(items: seq<CartItem>): real {
    if |items| == 0 then 0.0
    else items[0].unit_cost.GetOr(0.0) * items[0].quantity as real + TotalCost(items[1..])
  }

  /** `validate_margin_protection`: succeeds (with `true`) unless the margin
      after discount and loyalty falls below `minPct` percent of revenue. */
  function MarginCheck(items: seq<CartItem>, totalDiscount: real, loyalty: real,
                       minPct: real): (r: Result<bool, MarginError>)
    ensures r.Ok? ==> r.value
    ensures TotalCost(items) == 0.0 ==> r.Ok?
    ensures TotalCost(items) != 0.0 && Subtotal(items) == 0.0 ==> r == Err(ZeroRevenue)
    ensures TotalCost(items) != 0.0 && Subtotal(items) > 0.0 ==>
      (r.Ok? <==> Subtotal(items) - totalDiscount - loyalty - TotalCost(items)
                    >= minPct * Subtotal(items) / 100.0)
    ensures TotalCost(items) != 0.0 && Subtotal(items) < 0.0 ==>
      (r.Ok? <==> Subtotal(items) - totalDiscount - loyalty - TotalCost(items)
                    <= minPct * Subtotal(items) / 100.0)
    ensures r.Err? && r.error.MarginBelowMinimum? ==> r.error.margin < minPct
  {
    var cost := TotalCost(items);
    var revenue := Subtotal(items);
    if cost == 0.0 then Ok(true)
    else if revenue == 0.0 then Err(ZeroRevenue)
    else
      var effective := revenue - totalDiscount - loyalty;
      var margin := (effective - cost) / revenue * 100.0;
      MarginScaled(effective - cost, revenue, minPct);
      if margin < minPct then Err(MarginBelowMinimum(margin)) else Ok(true)
  }

  /** Comparing a percentage of revenue without the division. */
  lemma MarginScaled(profit: real, revenue: real, minPct: real)
    requires revenue != 0.0
    ensures revenue > 0.0 ==> (profit / revenue * 100.0 >= minPct <==> profit >= minPct * revenue / 100.0)
    ensures revenue < 0.0 ==> (profit / revenue * 100.0 >= minPct <==> profit <= minPct * revenue / 100.0)
  {
    var q := profit / revenue;
    assert q * revenue == profit;
    if revenue > 0.0 {
      assert q * 100.0 >= minPct <==> q * revenue * 100.0 >= minPct * revenue;
    } else {
      assert q * 100.0 >= minPct <==> q * revenue * 100.0 <= minPct * revenue;
    }
  }

  // ---------------------------------------------------------------- pipeline

  /** `calculate_breakdown`: the whole ordered pipeline. Each stage consumes the
      previous stage's output; the margin check can refuse the transaction. */
  function Breakdown(cfg: Config, items: seq<CartItem>, kind: Option<DiscountType>,
                     value: Option<real>, maxDiscount: Option<real>, pointsRedeemed: int,
                     member: MemberType, validateMargin: bool): (r: Result<FinancialBreakdown, MarginError>)
    requires ValidConfig(cfg)
    ensures var split := ApplyDiscount(cfg, Subtotal(items), kind, value, maxDiscount);
      var loyalty := LoyaltyStep(cfg, split.1, pointsRedeemed);
      r.Err? <==> validateMargin && MarginCheck(items, split.0, loyalty.0, MinMarginPct).Err?
    ensures r.Ok? ==>
      var b := r.value;
      var amountBeforeTax := b.subtotal_after_discount - b.loyalty_redemption;
      && b.gross_sales == Subtotal(items)
      && b.item_discounts == 0.0
      && b.transaction_discount == b.total_discount
      && b.total_discount == ApplyDiscount(cfg, b.gross_sales, kind, value, maxDiscount).0
      && b.total_discount + b.subtotal_after_discount == b.gross_sales
      && b.loyalty_redemption == LoyaltyStep(cfg, b.subtotal_after_discount, pointsRedeemed).0
      && b.loyalty_redemption <= b.subtotal_after_discount
      && amountBeforeTax >= 0.0
      && (b.dpp, b.tax_rate, b.tax_amount) == Tax(cfg, amountBeforeTax)
      && b.points_earned == PointsEarned(cfg, amountBeforeTax, member)
      && b.tax_rate == cfg.tax_rate
      && (cfg.tax_inclusive ==> b.grand_total == amountBeforeTax && b.dpp + b.tax_amount == amountBeforeTax)
      && (!cfg.tax_inclusive ==> b.dpp == amountBeforeTax && b.grand_total == amountBeforeTax + b.tax_amount)
      && (cfg.points_per_amount > 0 ==> b.points_earned >= 0)
      && (cfg.points_per_amount > 0 && member == REGULAR ==>
            (b.points_earned * cfg.points_per_amount) as real <= amountBeforeTax
            < ((b.points_earned + 1) * cfg.points_per_amount) as real)
  {
    var gross := Subtotal(items);
    var split := ApplyDiscount(cfg, gross, kind, value, maxDiscount);
    var loyalty := LoyaltyStep(cfg, split.1, pointsRedeemed);
    var check := if validateMargin then MarginCheck(items, split.0, loyalty.0, MinMarginPct) else Ok(true);
    if check.Err? then Err(check.error)
    else
      var amountBeforeTax := loyalty.1;
      var tax := Tax(cfg, amountBeforeTax);
      var grand := if cfg.tax_inclusive then amountBeforeTax else amountBeforeTax + tax.2;
      Ok(FinancialBreakdown(
        gross_sales := gross,
        item_discounts := 0.0,
        transaction_discount := split.0,
        total_discount := split.0,
        subtotal_after_discount := split.1,
        loyalty_redemption := loyalty.0,
        dpp := tax.0,
        tax_rate := tax.1,
        tax_amount := tax.2,
        grand_total := grand,
        points_earned := PointsEarned(cfg, amountBeforeTax, member)))
  }
}

=== FILE: discounts.dfy ===
/** The discount-code endpoints over the discounts table: validation of a
    code against a subtotal and a clock reading, creation and soft deletion.
    The table is a sequence of rows; a query is a filter over it. */
module Discounts {
  import opened Results
  import opened Schemas

  type Table = seq<DiscountRecord>

  /** The rows a `(tenant, code, is_active = true)` query returns. */
  function ActiveMatches(table: Table, tenant: string, code: string): (r: Table)
    ensures forall d :: d in r <==> d in table && d.tenant_id == tenant && d.code == code && d.is_active
  {
    if |table| == 0 then []
    else
      var rest := ActiveMatches(table[1..], tenant, code);
      var d := table[0];
      assert forall x :: x in table <==> x == d || x in table[1..];
      if d.tenant_id == tenant && d.code == code && d.is_active then [d] + rest else rest
  }

  /** Row `d` answers the query for `tenant` and `code`. */
  predicate IsActiveMatch(d: DiscountRecord, tenant: string, code: string) {
    d.tenant_id == tenant && d.code == code && d.is_active
  }

  /** `.single()`: a query yields a record only when exactly one row matches.
      In a well-formed table an active row is always the one its code finds. */
  function Lookup(table: Table, tenant: string, code: string): (r: Option<DiscountRecord>)
    ensures r.Some? <==> |ActiveMatches(table, tenant, code)| == 1
    ensures r.Some? ==> r.value in table && r.value.tenant_id == tenant && r.value.code == code && r.value.is_active
    ensures WellFormed(table) ==>
      forall k :: 0 <= k < |table| && IsActiveMatch(table[k], tenant, code) ==> r == Some(table[k])
  {
    assert WellFormed(table) ==>
      forall k :: 0 <= k < |table| && IsActiveMatch(table[k], tenant, code) ==>
        ActiveMatches(table, tenant, code) == [table[k]] by {
      if WellFormed(table) {
        forall k | 0 <= k < |table| && IsActiveMatch(table[k], tenant, code)
          ensures ActiveMatches(table, tenant, code) == [table[k]]
        {
          forall i | 0 <= i < |table| && i != k
            ensures !(table[i].tenant_id == tenant && table[i].code == code)
          {
            assert i < k || k < i;
          }
          OnlyRowMatches(table, tenant, code, k);
        }
      }
    }
    var matches := ActiveMatches(table, tenant, code);
    if |matches| == 1 then Some(matches[0]) else None
  }

  /** When row `k` is the only row with the tenant and code, and it is active,
      the query returns exactly that row. */
  lemma {:induction false} OnlyRowMatches(table: Table, tenant: string, code: string, k: nat)
    requires k < |table|
    requires table[k].tenant_id == tenant && table[k].code == code && table[k].is_active
    requires forall i :: 0 <= i < |table| && i != k ==> !(table[i].tenant_id == tenant && table[i].code == code)
    ensures ActiveMatches(table, tenant, code) == [table[k]]
  {
    var pre, post := table[..k], table[k + 1..];
    assert table == pre + ([table[k]] + post);
    forall i | 0 <= i < |pre|
      ensures !(pre[i].tenant_id == tenant && pre[i].code == code && pre[i].is_active)
    {
      assert pre[i] == table[i];
    }
    forall i | 0 <= i < |post|
      ensures !(post[i].tenant_id == tenant && post[i].code == code && post[i].is_active)
    {
      assert post[i] == table[k + 1 + i];
    }
    NoActiveMatches(pre, tenant, code);
    NoActiveMatches(post, tenant, code);
    MatchesAppend(pre, [table[k]] + post, tenant, code);
    MatchesAppend([table[k]], post, tenant, code);
    assert [table[k]][1..] == [];
  }

  /** A usage limit is enforced only when it is set and non-zero. */
  predicate UsageExhausted(d: DiscountRecord) {
    d.usage_limit.Some? && d.usage_limit.value != 0 && d.usage_count >= d.usage_limit.value
  }

  /** The cap on a percentage discount, when it is set and non-zero. */
  predicate HasCap(d: DiscountRecord) {
    d.max_discount.Some? && d.max_discount.value != 0.0
  }

  datatype Validation = Validation(valid: bool, code: string, name: string, kind: DiscountType, discount_value: real)

  /** The value a discount is worth on a subtotal: a percentage of it (capped
      when a cap is set) or a fixed amount no larger than the subtotal. */
  function DiscountValue(d: DiscountRecord, subtotal: real): (v: real)
    ensures d.kind == PERCENTAGE ==>
      && v <= subtotal * d.value / 100.0
      && (HasCap(d) ==> v <= d.max_discount.value)
      && (v == subtotal * d.value / 100.0 || (HasCap(d) && v == d.max_discount.value))
    ensures d.kind == FIXED ==> v <= d.value && v <= subtotal && (v == d.value || v == subtotal)
  {
    if d.kind == PERCENTAGE then
      var v := subtotal * d.value / 100.0;
      if HasCap(d) && d.max_discount.value < v then d.max_discount.value else v
    else
      if d.value <= subtotal then d.value else subtotal
  }

  /** Whether a found discount applies at `now` to `subtotal`. */
  predicate Applicable(d: DiscountRecord, now: Timestamp, subtotal: real) {
    && (d.valid_from.None? || d.valid_from.value <= now)
    && (d.valid_until.None? || now <= d.valid_until.value)
    && !UsageExhausted(d)
    && d.min_purchase <= subtotal
  }

  /** `validate_discount`: the checks run in order (found, not yet valid,
      expired, usage limit, minimum purchase); the first that fails decides. */
  function ValidateDiscount(table: Table, code: string, tenant: string, subtotal: real,
                            now: Timestamp): (r: Result<Validation, HttpError>)
    ensures Lookup(table, tenant, code).None? ==> r == Err(HttpError(404, "Discount code not found"))
    ensures Lookup(table, tenant, code).Some? ==>
      var d := Lookup(table, tenant, code).value;
      && (d.valid_from.Some? && d.valid_from.value > now ==>
            r == Err(HttpError(400, "Discount not yet valid")))
      && ((d.valid_from.None? || d.valid_from.value <= now) && d.valid_until.Some? && d.valid_until.value < now ==>
            r == Err(HttpError(400, "Discount expired")))
      && (r.Ok? <==> Applicable(d, now, subtotal))
      && (r.Ok? ==> r.value == Validation(true, code, d.name, d.kind, DiscountValue(d, subtotal)))
  {
    match Lookup(table, tenant, code)
    case None => Err(HttpError(404, "Discount code not found"))
    case Some(d) =>
      if d.valid_from.Some? && d.valid_from.value > now then Err(HttpError(400, "Discount not yet valid"))
      else if d.valid_until.Some? && d.valid_until.value < now then Err(HttpError(400, "Discount expired"))
      else if UsageExhausted(d) then Err(HttpError(400, "Discount usage limit reached"))
      else if subtotal < d.min_purchase then Err(HttpError(400, "Minimum purchase required"))
      else Ok(Validation(true, code, d.name, d.kind, DiscountValue(d, subtotal)))
  }

  /** On a non-negative subtotal with a non-negative fixed value, the value a
      validated discount reports lies between zero and the subtotal. */
  lemma FixedValueWithinSubtotal(d: DiscountRecord, subtotal: real)
    requires d.kind == FIXED && d.value >= 0.0 && subtotal >= 0.0
    ensures 0.0 <= DiscountValue(d, subtotal) <= subtotal
  {
  }

  // ------------------------------------------------------------ table updates

  predicate CodeTaken(table: Table, tenant: string, code: string) {
    exists i :: 0 <= i < |table| && table[i].tenant_id == tenant && table[i].code == code
  }

  predicate IdTaken(table: Table, id: string) {
    exists i :: 0 <= i < |table| && table[i].id == id
  }

  /** No tenant holds the same code twice, and row ids are distinct. */
  predicate WellFormed(table: Table) {
    && (forall i, j :: 0 <= i < j < |table| ==>
          !(table[i].tenant_id == table[j].tenant_id && table[i].code == table[j].code))
    && (forall i, j :: 0 <= i < j < |table| ==> table[i].id != table[j].id)
  }

  /** The row a creation request inserts: unused and active. */
  function NewDiscount(req: DiscountCreate, id: string): (d: DiscountRecord)
    ensures d.usage_count == 0 && d.is_active
    ensures d.id == id && d.tenant_id == req.tenant_id && d.code == req.code
  {
    DiscountRecord(id, req.tenant_id, req.code, req.name, req.kind, req.value, req.min_purchase,
                   req.max_discount, req.usage_limit, 0, req.valid_from, req.valid_until, true)
  }

  /** `create_discount`: refuses a code the tenant already has (active or not);
      otherwise appends the new row. The fresh id is an input. */
  function CreateDiscount(table: Table, req: DiscountCreate, newId: string): (r: Result<Table, HttpError>)
    requires !IdTaken(table, newId)
    ensures r.Err? <==> CodeTaken(table, req.tenant_id, req.code)
    ensures r.Err? ==> r.error == HttpError(400, "Discount code already exists")
    ensures r.Ok? ==> r.value == table + [NewDiscount(req, newId)]
  {
    if CodeTaken(table, req.tenant_id, req.code) then Err(HttpError(400, "Discount code already exists"))
    else Ok(table + [NewDiscount(req, newId)])
  }

  /** Creation keeps codes unique per tenant and ids distinct. */
  lemma CreateKeepsWellFormed(table: Table, req: DiscountCreate, newId: string)
    requires WellFormed(table) && !IdTaken(table, newId)
    ensures var r := CreateDiscount(table, req, newId); r.Ok? ==> WellFormed(r.value)
  {
    var r := CreateDiscount(table, req, newId);
    if r.Ok? {
      var t := r.value;
      forall i, j | 0 <= i < j < |t|
        ensures !(t[i].tenant_id == t[j].tenant_id && t[i].code == t[j].code)
        ensures t[i].id != t[j].id
      {
        if j == |table| {
          assert t[i] == table[i];
        }
      }
    }
  }

  /** A just-created discount is what a lookup of its code finds. */
  lemma {:induction false} CreateThenLookup(table: Table, req: DiscountCreate, newId: string)
    requires !IdTaken(table, newId)
    requires !CodeTaken(table, req.tenant_id, req.code)
    ensures Lookup(table + [NewDiscount(req, newId)], req.tenant_id, req.code) == Some(NewDiscount(req, newId))
  {
    NoActiveMatches(table, req.tenant_id, req.code);
    MatchesAppend(table, [NewDiscount(req, newId)], req.tenant_id, req.code);
  }

  /** A query matches nothing when every row with that tenant and code is inactive. */
  lemma {:induction false} NoActiveMatches(table: Table, tenant: string, code: string)
    requires forall i :: 0 <= i < |table| ==>
               !(table[i].tenant_id == tenant && table[i].code == code && table[i].is_active)
    ensures ActiveMatches(table, tenant, code) == []
  {
    if |table| > 0 {
      forall i | 0 <= i < |table[1..]|
        ensures !(table[1..][i].tenant_id == tenant && table[1..][i].code == code && table[1..][i].is_active)
      {
        assert table[1..][i] == table[i + 1];
      }
      NoActiveMatches(table[1..], tenant, code);
    }
  }

  lemma {:induction false} MatchesAppend(a: Table, b: Table, tenant: string, code: string)
    ensures ActiveMatches(a + b, tenant, code) == ActiveMatches(a, tenant, code) + ActiveMatches(b, tenant, code)
  {
    if |a| == 0 {
      assert a + b == b;
    } else {
      assert (a + b)[1..] == a[1..] + b;
      MatchesAppend(a[1..], b, tenant, code);
    }
  }

  /** `deactivate_discount`: a soft delete that clears `is_active` on the row
      with that id and changes nothing else. */
  function DeactivateDiscount(table: Table, id: string): (r: Result<Table, HttpError>)
    ensures r.Err? <==> !IdTaken(table, id)
    ensures r.Err? ==> r.error == HttpError(404, "Discount not found")
    ensures r.Ok? ==> |r.value| == |table|
    ensures r.Ok? ==> forall i :: 0 <= i < |table| ==>
      r.value[i] == if table[i].id == id then table[i].(is_active := false) else table[i]
  {
    if !IdTaken(table, id) then Err(HttpError(404, "Discount not found"))
    else Ok(Deactivated(table, id))
  }

  function Deactivated(table: Table, id: string): (r: Table)
    ensures |r| == |table|
    ensures forall i :: 0 <= i < |table| ==>
      r[i] == if table[i].id == id then table[i].(is_active := false) else table[i]
  {
    if |table| == 0 then []
    else
      [if table[0].id == id then table[0].(is_active := false) else table[0]] + Deactivated(table[1..], id)
  }

  /** After a soft delete the code of the deactivated row is no longer found. */
  lemma DeactivateHidesCode(table: Table, k: nat)
    requires WellFormed(table) && k < |table|
    ensures var r := DeactivateDiscount(table, table[k].id);
      r.Ok? && WellFormed(r.value) && Lookup(r.value, table[k].tenant_id, table[k].code).None?
  {
    var d := table[k];
    assert IdTaken(table, d.id);
    var t := Deactivated(table, d.id);
    forall i | 0 <= i < |t|
      ensures t[i].tenant_id == d.tenant_id && t[i].code == d.code ==> !t[i].is_active
    {
      if i != k {
        assert t[i] == table[i];
        assert i < k || k < i;
      }
    }
    NoActiveMatches(t, d.tenant_id, d.code);
  }

  /** A deactivated code is refused by validation as not found. */
  lemma ValidateAfterDeactivate(table: Table, k: nat, subtotal: real, now: Timestamp)
    requires WellFormed(table) && k < |table|
    ensures var r := DeactivateDiscount(table, table[k].id);
      r.Ok? && ValidateDiscount(r.value, table[k].code, table[k].tenant_id, subtotal, now)
               == Err(HttpError(404, "Discount code not found"))
  {
    DeactivateHidesCode(table, k);
  }
}

=== FILE: login.dfy ===
/** The login screen: a fixed table of demo accounts, password sign-in with
    role routing, and the one-click demo sign-in. */
module Login {
  import opened Results
  import opened Schemas
  import opened Session

  datatype Account = Account(password: string, role: UserRole, name: string)

  /** The demo accounts, keyed by exact (case-sensitive) email. */
  const DemoUsers: map<string, Account> := map[
    "kasir@demo.com" := Account("kasir123", CASHIER, "Demo Kasir"),
    "owner@demo.com" := Account("owner123", OWNER, "Demo Owner"),
    "admin@demo.com" := Account("admin123", ADMIN, "Demo Admin")]

  const BadCredentials: string := "Email atau kata sandi salah"

  /** The form's error banner and its busy flag. */
  datatype Form = Form(error: string, loading: bool)

  predicate Authentic(email: string, password: string) {
    email in DemoUsers && DemoUsers[email].password == password
  }

  /** `handleSubmit`: clears the error and shows the spinner; with matching
      credentials stores `{email, role, name}` and routes by role, otherwise
      shows the error, stops the spinner and stores nothing. */
  function HandleSubmit(form: Form, b: Browser, email: string, password: string): (r: (Form, Browser))
    ensures Authentic(email, password) ==>
      var acc := DemoUsers[email];
      && r.0 == Form("", true)
      && r.1.storage == b.storage[UserKey := User(email, RoleName(acc.role), acc.name)]
      && r.1.location == RouteFor(acc.role)
    ensures !Authentic(email, password) ==> r.0 == Form(BadCredentials, false) && r.1 == b
  {
    var pending := form.(error := "", loading := true);
    if email in DemoUsers && DemoUsers[email].password == password then
      var acc := DemoUsers[email];
      (pending, SignIn(b, User(email, RoleName(acc.role), acc.name), acc.role))
    else
      (pending.(error := BadCredentials, loading := false), b)
  }

  /** The fixed demo identity of each role. */
  function DemoEmail(role: UserRole): string {
    match role
    case CASHIER => "kasir@demo.com"
    case OWNER => "owner@demo.com"
    case ADMIN => "admin@demo.com"
  }

  function DemoName(role: UserRole): string {
    match role
    case CASHIER => "Demo Kasir"
    case OWNER => "Demo Owner"
    case ADMIN => "Demo Admin"
  }

  /** `quickLogin`: stores the role's demo identity without a password check. */
  function QuickLogin(b: Browser, role: UserRole): (r: Browser)
    ensures UserKey in r.storage && r.storage[UserKey].role == RoleName(role)
    ensures r.location == RouteFor(role)
  {
    SignIn(b, User(DemoEmail(role), RoleName(role), DemoName(role)), role)
  }

  /** Quick login leaves the browser exactly as a password sign-in with that
      role's demo credentials does. */
  lemma QuickLoginAgreesWithSubmit(form: Form, b: Browser, role: UserRole)
    ensures DemoEmail(role) in DemoUsers
    ensures var email := DemoEmail(role);
      HandleSubmit(form, b, email, DemoUsers[email].password).1 == QuickLogin(b, role)
  {
  }

  /** A successful sign-in passes the entry guard of its own screen and no other. */
  lemma SignedInPassesOwnGuard(form: Form, b: Browser, email: string, password: string, screen: UserRole)
    requires Authentic(email, password)
    ensures var after := HandleSubmit(form, b, email, password).1;
      EntryGuard(after, screen).1.Some? <==> screen == DemoUsers[email].role
  {
    var acc := DemoUsers[email];
    if screen != acc.role {
      RoleNameInjective(screen, acc.role);
    }
  }

  /** Emails are matched exactly: a differently cased address is refused. */
  lemma EmailIsCaseSensitive(form: Form, b: Browser)
    ensures HandleSubmit(form, b, "Kasir@demo.com", "kasir123") == (Form(BadCredentials, false), b)
  {
    assert "Kasir@demo.com" !in DemoUsers by {
      assert "Kasir@demo.com"[0] != "kasir@demo.com"[0];
    }
  }
}

=== FILE: money.dfy ===
/** Exact money arithmetic: the rounding modes the source relies on. */
module Money {

  /** A whole number of the smallest currency unit (rupiah). */
  predicate IsWhole(x: real) {
    x == x.Floor as real
  }

  function Min(a: real, b: real): (r: real)
    ensures r <= a && r <= b
    ensures r == a || r == b
  {
    if a <= b then a else b
  }

  /** `Decimal.quantize(Decimal("1"), rounding=ROUND_HALF_UP)`: round to the
      nearest whole unit, ties away from zero. The three clauses determine
      the result uniquely. */
  function RoundHalfUp(x: real): (r: int)
    ensures x - 0.5 <= r as real <= x + 0.5
    ensures x >= 0.0 ==> x - 0.5 < r as real
    ensures x < 0.0 ==> r as real < x + 0.5
  {
    if x >= 0.0 then (x + 0.5).Floor else -((0.5 - x).Floor)
  }

  /** JavaScript `Math.round` on exact numbers: ties towards positive infinity. */
  function MathRound(x: real): (r: int)
    ensures x - 0.5 < r as real <= x + 0.5
  {
    (x + 0.5).Floor
  }

  /** Python `int(x)`: truncation towards zero. */
  function Trunc(x: real): (r: int)
    ensures x >= 0.0 ==> 0 <= r && r as real <= x < r as real + 1.0
    ensures x < 0.0 ==> r <= 0 && r as real - 1.0 < x <= r as real
  {
    if x >= 0.0 then x.Floor else -((-x).Floor)
  }

  /** Rounding leaves a whole amount unchanged. */
  lemma RoundWhole(x: real)
    requires IsWhole(x)
    ensures RoundHalfUp(x) as real == x
  {
    var r := RoundHalfUp(x);
    assert x - 0.5 <= r as real <= x + 0.5;
    assert x.Floor - 1 < r < x.Floor + 1;
  }

  /** Rounding half-up is monotone. */
  lemma RoundMonotone(x: real, y: real)
    requires x <= y
    ensures RoundHalfUp(x) <= RoundHalfUp(y)
  {
    if x >= 0.0 {
      assert (x + 0.5).Floor <= (y + 0.5).Floor;
    } else if y < 0.0 {
      assert (0.5 - y).Floor <= (0.5 - x).Floor;
    }
  }

  /** Truncation is monotone. */
  lemma TruncMonotone(x: real, y: real)
    requires x <= y
    ensures Trunc(x) <= Trunc(y)
  {
    if x >= 0.0 {
      assert x.Floor <= y.Floor;
    } else if y < 0.0 {
      assert (-y).Floor <= (-x).Floor;
    }
  }

  /** On non-negative amounts `Math.round` and half-up rounding agree. */
  lemma MathRoundIsHalfUp(x: real)
    requires x >= 0.0
    ensures MathRound(x) == RoundHalfUp(x)
  {
  }
}

=== FILE: pos_cart.dfy ===
/** The cashier screen's cart: the fixed catalogue, the three cart edits, the
    derived totals and the product filter. Every edit works on the whole cart
    and returns the new one, as the screen's state updates do. */
module PosCart {
  import opened Money

  datatype Product = Product(id: string, sku: string, name: string, price: int, stock: int, category: string)

  /** A cart line: the product as it was added, and how many of it. */
  datatype Line = Line(product: Product, qty: int)

  type Cart = seq<Line>

  /** The hard-coded catalogue the screen sells from. */
  const Catalog: seq<Product> := [
    Product("1", "DRK-001", "Kopi Susu Gula Aren", 18000, 100, "Beverage"),
    Product("2", "FOD-001", "Ayam Goreng Sambal Matah", 25000, 50, "Food"),
    Product("3", "FOD-002", "Nasi Putih Pulen", 5000, 200, "Food"),
    Product("4", "DRK-002", "Es Teh Manis Jumbo", 6000, 150, "Beverage"),
    Product("5", "SNK-001", "Pisang Goreng Keju", 15000, 40, "Snack"),
    Product("6", "FOD-003", "Mie Goreng Spesial", 22000, 80, "Food"),
    Product("7", "SNK-002", "Dimsum Ayam (4 pcs)", 16000, 60, "Snack"),
    Product("8", "DRK-003", "Jus Alpukat", 15000, 30, "Beverage")]

  /** The category tabs; "Semua" shows every category. */
  const AllCategories: string := "Semua"
  const Categories: seq<string> := [AllCategories, "Food", "Beverage", "Snack", "Promo"]

  predicate HasId(cart: Cart, id: string) {
    exists i :: 0 <= i < |cart| && cart[i].product.id == id
  }

  /** What the cart edits maintain: positive quantities, one line per product. */
  predicate WellFormed(cart: Cart) {
    && (forall i :: 0 <= i < |cart| ==> cart[i].qty >= 1)
    && (forall i, j :: 0 <= i < j < |cart| ==> cart[i].product.id != cart[j].product.id)
  }

  /** Units of product `id` in the cart, over all its lines. */
  function Units(cart: Cart, id: string): int {
    if cart == [] then 0
    else (if cart[0].product.id == id then cart[0].qty else 0) + Units(cart[1..], id)
  }

  /** Number of lines for product `id`. */
  function LineCount(cart: Cart, id: string): nat {
    if cart == [] then 0
    else (if cart[0].product.id == id then 1 else 0) + LineCount(cart[1..], id)
  }

  /** The badge count: all units in the cart. */
  function CartCount(cart: Cart): int {
    if cart == [] then 0 else cart[0].qty + CartCount(cart[1..])
  }

  /** Sum of price times quantity over the lines. */
  function Subtotal(cart: Cart): int {
    if cart == [] then 0 else cart[0].product.price * cart[0].qty + Subtotal(cart[1..])
  }

  // ---------------------------------------------------------------------------
  // Cart edits
  // ---------------------------------------------------------------------------

  /** Adds one unit to every line of product `id`. */
  function Bump(cart: Cart, id: string): (r: Cart)
    ensures |r| == |cart|
    ensures forall i :: 0 <= i < |r| ==> r[i].product == cart[i].product
    ensures forall i :: 0 <= i < |r| ==>
      r[i].qty == cart[i].qty + (if cart[i].product.id == id then 1 else 0)
  {
    if cart == [] then []
    else
      var head := if cart[0].product.id == id then cart[0].(qty := cart[0].qty + 1) else cart[0];
      [head] + Bump(cart[1..], id)
  }

  /** `addToCart`: one more unit on the product's line, or a new line of one
      unit at the end. */
  function AddToCart(cart: Cart, p: Product): (r: Cart)
    ensures !HasId(cart, p.id) ==> r == cart + [Line(p, 1)]
    ensures HasId(cart, p.id) ==> |r| == |cart|
    ensures HasId(cart, p.id) ==> forall i :: 0 <= i < |r| ==>
      r[i].product == cart[i].product && r[i].qty == cart[i].qty + (if cart[i].product.id == p.id then 1 else 0)
    ensures WellFormed(cart) ==> WellFormed(r)
  {
    if HasId(cart, p.id) then Bump(cart, p.id) else cart + [Line(p, 1)]
  }

  /** The cart after product `id` goes from `cart[k]` to quantity `q`: the line
      keeps its place when `q` is positive and is spliced out otherwise. */
  function SetQtyAt(cart: Cart, k: nat, q: int): Cart
    requires k < |cart|
  {
    if q > 0 then cart[k := cart[k].(qty := q)] else cart[..k] + cart[k + 1..]
  }

  /** `r` is `cart` with product `id`'s line moved to quantity `qty + delta`
      in place, or spliced out when that is not positive. */
  predicate UpdatedInPlace(cart: Cart, id: string, delta: int, r: Cart) {
    forall k :: 0 <= k < |cart| && cart[k].product.id == id ==> r == SetQtyAt(cart, k, cart[k].qty + delta)
  }

  /** What `updateQty` promises of its result `r`: it is no longer than the
      cart, equals it when the product is absent, brings in no new product,
      keeps quantities positive, and on a well-formed cart moves the product's
      line in place. */
  ghost predicate QtyUpdated(cart: Cart, id: string, delta: int, r: Cart) {
    && |r| <= |cart|
    && (!HasId(cart, id) ==> r == cart)
    && (forall x :: HasId(r, x) ==> HasId(cart, x))
    && ((forall i :: 0 <= i < |cart| ==> cart[i].qty >= 1) ==> forall i :: 0 <= i < |r| ==> r[i].qty >= 1)
    && (WellFormed(cart) ==> UpdatedInPlace(cart, id, delta, r))
  }

  /** `updateQty`: changes the product's quantity by `delta`, dropping the line
      once the new quantity is not positive; the line keeps its position and the
      other lines are untouched. */
  function UpdateQty(cart: Cart, id: string, delta: int): (r: Cart)
    ensures |r| <= |cart|
    ensures !HasId(cart, id) ==> r == cart
    ensures forall x :: HasId(r, x) ==> HasId(cart, x)
    ensures (forall i :: 0 <= i < |cart| ==> cart[i].qty >= 1) ==> forall i :: 0 <= i < |r| ==> r[i].qty >= 1
    ensures WellFormed(cart) ==> UpdatedInPlace(cart, id, delta, r)
  {
    if cart == [] then []
    else
      var rest := UpdateQty(cart[1..], id, delta);
      var r :=
        if cart[0].product.id != id then [cart[0]] + rest
        else if cart[0].qty + delta > 0 then [cart[0].(qty := cart[0].qty + delta)] + rest
        else rest;
      UpdateQtyStep(cart, id, delta, rest, r);
      r
  }

  /** The step case of `UpdateQty`: one line in front of the tail's result. */
  lemma UpdateQtyStep(cart: Cart, id: string, delta: int, rest: Cart, r: Cart)
    requires cart != [] && QtyUpdated(cart[1..], id, delta, rest)
    requires r == if cart[0].product.id != id then [cart[0]] + rest
      else if cart[0].qty + delta > 0 then [cart[0].(qty := cart[0].qty + delta)] + rest
      else rest
    ensures QtyUpdated(cart, id, delta, r)
  {
    TailIdsInCart(cart, rest);
    HasIdCons(cart, id);
    forall x | HasId(r, x) ensures HasId(cart, x) {
      if r != [] {
        HasIdCons(r, x);
        if r[0].product.id != x {
          if cart[0].product.id == id && cart[0].qty + delta <= 0 {
            assert HasId(rest, x);
          } else {
            assert r[1..] == rest;
          }
        }
      }
    }
    if WellFormed(cart) {
      WellFormedTail(cart);
      forall k | 0 <= k < |cart| && cart[k].product.id == id
        ensures r == SetQtyAt(cart, k, cart[k].qty + delta)
      {
        UpdateQtyAt(cart, id, delta, k, rest, r);
      }
    }
  }

  /** `r` is `cart` with product `id`'s line cut out and the rest closed up. */
  predicate SplicedOut(cart: Cart, id: string, r: Cart) {
    forall k :: 0 <= k < |cart| && cart[k].product.id == id ==> r == cart[..k] + cart[k + 1..]
  }

  /** `removeFromCart`: drops every line of the product, keeping the others in
      their order. */
  function RemoveFromCart(cart: Cart, id: string): (r: Cart)
    ensures |r| <= |cart|
    ensures !HasId(r, id)
    ensures !HasId(cart, id) ==> r == cart
    ensures IsSubsequence(r, cart)
    ensures WellFormed(cart) ==> SplicedOut(cart, id, r)
  {
    if cart == [] then []
    else
      var rest := RemoveFromCart(cart[1..], id);
      var r := if cart[0].product.id == id then rest else [cart[0]] + rest;
      assert !HasId(cart, id) ==> r == cart by {
        HasIdCons(cart, id);
      }
      assert IsSubsequence(r, cart) by {
        if cart[0].product.id != id {
          assert r[1..] == rest;
        } else if rest != [] {
          assert IsSubsequence(rest, cart[1..]);
        }
      }
      assert WellFormed(cart) ==> SplicedOut(cart, id, r) by {
        if WellFormed(cart) {
          WellFormedTail(cart);
          forall k | 0 <= k < |cart| && cart[k].product.id == id
            ensures r == cart[..k] + cart[k + 1..]
          {
            RemoveFromCartAt(cart, id, k, rest, r);
          }
        }
      }
      r
  }

  /** The step case of `RemoveFromCart`'s splice clause. */
  lemma RemoveFromCartAt(cart: Cart, id: string, k: nat, rest: Cart, r: Cart)
    requires WellFormed(cart) && cart != [] && k < |cart| && cart[k].product.id == id
    requires !HasId(cart[1..], cart[0].product.id)
    requires !HasId(cart[1..], id) ==> rest == cart[1..]
    requires SplicedOut(cart[1..], id, rest)
    requires WellFormed(cart[1..])
    requires r == if cart[0].product.id == id then rest else [cart[0]] + rest
    ensures r == cart[..k] + cart[k + 1..]
  {
    if k == 0 {
      assert cart[..0] + cart[1..] == cart[1..];
    } else {
      assert cart[0].product.id != cart[k].product.id;
      assert cart[1..][k - 1] == cart[k];
      assert [cart[0]] + (cart[1..][..k - 1] + cart[1..][k..]) == cart[..k] + cart[k + 1..];
    }
  }

  /** Products found in a list drawn from the tail are found in the cart. */
  lemma TailIdsInCart(cart: Cart, rest: Cart)
    requires cart != []
    requires forall x :: HasId(rest, x) ==> HasId(cart[1..], x)
    ensures forall x :: HasId(rest, x) ==> HasId(cart, x)
  {
    forall x | HasId(rest, x) ensures HasId(cart, x) {
      var i :| 0 <= i < |cart[1..]| && cart[1..][i].product.id == x;
      assert cart[i + 1].product.id == x;
    }
  }

  /** The step case of `UpdateQty`'s positional clause: one cons in front of the
      recursive result. */
  lemma UpdateQtyAt(cart: Cart, id: string, delta: int, k: nat, rest: Cart, r: Cart)
    requires WellFormed(cart) && cart != [] && k < |cart| && cart[k].product.id == id
    requires WellFormed(cart[1..]) && !HasId(cart[1..], cart[0].product.id)
    requires !HasId(cart[1..], id) ==> rest == cart[1..]
    requires UpdatedInPlace(cart[1..], id, delta, rest)
    requires r == if cart[0].product.id != id then [cart[0]] + rest
      else if cart[0].qty + delta > 0 then [cart[0].(qty := cart[0].qty + delta)] + rest
      else rest
    ensures r == SetQtyAt(cart, k, cart[k].qty + delta)
  {
    if k == 0 {
      assert rest == cart[1..];
      assert cart[..0] + cart[1..] == cart[1..];
    } else {
      assert cart[0].product.id != cart[k].product.id;
      assert cart[1..][k - 1] == cart[k];
      assert rest == SetQtyAt(cart[1..], k - 1, cart[k].qty + delta);
      ConsSetQtyAt(cart, k, cart[k].qty + delta);
    }
  }

  /** Setting a line past the first commutes with putting the first line back. */
  lemma ConsSetQtyAt(cart: Cart, k: nat, q: int)
    requires 0 < k < |cart|
    ensures [cart[0]] + SetQtyAt(cart[1..], k - 1, q) == SetQtyAt(cart, k, q)
  {
    if q > 0 {
      assert [cart[0]] + cart[1..][k - 1 := cart[k].(qty := q)] == cart[k := cart[k].(qty := q)];
    } else {
      assert [cart[0]] + (cart[1..][..k - 1] + cart[1..][k..]) == cart[..k] + cart[k + 1..];
    }
  }

  // ---------------------------------------------------------------------------
  // Facts about the cart edits
  // ---------------------------------------------------------------------------

  lemma HasIdCons(cart: Cart, id: string)
    requires cart != []
    ensures HasId(cart, id) <==> cart[0].product.id == id || HasId(cart[1..], id)
  {
    if HasId(cart, id) && cart[0].product.id != id {
      var i :| 0 <= i < |cart| && cart[i].product.id == id;
      assert cart[1..][i - 1].product.id == id;
    }
    if HasId(cart[1..], id) {
      var i :| 0 <= i < |cart[1..]| && cart[1..][i].product.id == id;
      assert cart[i + 1].product.id == id;
    }
  }

  /** A well-formed cart's tail is well formed and does not hold the head's product. */
  lemma WellFormedTail(cart: Cart)
    requires WellFormed(cart) && cart != []
    ensures WellFormed(cart[1..]) && !HasId(cart[1..], cart[0].product.id)
    ensures cart[0].qty >= 1
  {
    forall i | 0 <= i < |cart[1..]|
      ensures cart[1..][i].product.id != cart[0].product.id
    {
      assert cart[1..][i] == cart[i + 1];
    }
  }

  /** Putting a positive line for a new product in front keeps a cart well formed. */
  lemma WellFormedCons(line: Line, cart: Cart)
    requires WellFormed(cart) && line.qty >= 1 && !HasId(cart, line.product.id)
    ensures WellFormed([line] + cart)
  {
    var c := [line] + cart;
    forall i, j | 0 <= i < j < |c| ensures c[i].product.id != c[j].product.id {
      if i == 0 {
        assert c[j] == cart[j - 1];
      } else {
        assert c[i] == cart[i - 1] && c[j] == cart[j - 1];
      }
    }
  }

  lemma {:induction false} AbsentHasNoUnits(cart: Cart, id: string)
    requires !HasId(cart, id)
    ensures Units(cart, id) == 0 && LineCount(cart, id) == 0
  {
    if cart != [] {
      HasIdCons(cart, id);
      AbsentHasNoUnits(cart[1..], id);
    }
  }

  /** A well-formed cart holds at most one line per product. */
  lemma {:induction false} OneLinePerProduct(cart: Cart, id: string)
    requires WellFormed(cart)
    ensures LineCount(cart, id) == (if HasId(cart, id) then 1 else 0)
  {
    if cart != [] {
      HasIdCons(cart, id);
      WellFormedTail(cart);
      if cart[0].product.id == id {
        AbsentHasNoUnits(cart[1..], id);
      } else {
        OneLinePerProduct(cart[1..], id);
      }
    }
  }

  lemma {:induction false} UnitsAppend(cart: Cart, line: Line, x: string)
    ensures Units(cart + [line], x) == Units(cart, x) + (if line.product.id == x then line.qty else 0)
    ensures CartCount(cart + [line]) == CartCount(cart) + line.qty
    ensures Subtotal(cart + [line]) == Subtotal(cart) + line.product.price * line.qty
  {
    if cart != [] {
      assert (cart + [line])[1..] == cart[1..] + [line];
      UnitsAppend(cart[1..], line, x);
    } else {
      assert [] + [line] == [line];
    }
  }

  lemma {:induction false} BumpUnits(cart: Cart, id: string, x: string)
    ensures Units(Bump(cart, id), x) == Units(cart, x) + (if x == id then LineCount(cart, id) else 0)
    ensures CartCount(Bump(cart, id)) == CartCount(cart) + LineCount(cart, id)
  {
    if cart != [] {
      BumpUnits(cart[1..], id, x);
      assert Bump(cart, id)[1..] == Bump(cart[1..], id);
    }
  }

  /** Adding a product puts exactly one more unit of it in a well-formed cart,
      and leaves every other product's units alone. */
  lemma AddToCartUnits(cart: Cart, p: Product, x: string)
    requires WellFormed(cart)
    ensures Units(AddToCart(cart, p), x) == Units(cart, x) + (if x == p.id then 1 else 0)
    ensures CartCount(AddToCart(cart, p)) == CartCount(cart) + 1
  {
    if HasId(cart, p.id) {
      OneLinePerProduct(cart, p.id);
      BumpUnits(cart, p.id, x);
    } else {
      UnitsAppend(cart, Line(p, 1), x);
    }
  }

  /** Pressing a product's tile `n` times. */
  function AddTimes(cart: Cart, p: Product, n: nat): (r: Cart)
    ensures WellFormed(cart) ==> WellFormed(r)
  {
    if n == 0 then cart else AddToCart(AddTimes(cart, p, n - 1), p)
  }

  /** Starting from an empty cart, `n` presses give one line of quantity `n`. */
  lemma {:induction false} AddTimesFromEmpty(p: Product, n: nat)
    requires n >= 1
    ensures AddTimes([], p, n) == [Line(p, n)]
  {
    if n > 1 {
      AddTimesFromEmpty(p, n - 1);
      var prev := [Line(p, n - 1)];
      assert HasId(prev, p.id) by { assert prev[0].product.id == p.id; }
      assert AddToCart(prev, p)[0] == Line(p, n);
    }
  }

  /** `n` presses add `n` units of that product and nothing else. */
  lemma {:induction false} AddTimesUnits(cart: Cart, p: Product, n: nat, x: string)
    requires WellFormed(cart)
    ensures Units(AddTimes(cart, p, n), x) == Units(cart, x) + (if x == p.id then n else 0)
  {
    if n > 0 {
      AddTimesUnits(cart, p, n - 1, x);
      AddToCartUnits(AddTimes(cart, p, n - 1), p, x);
    }
  }

  /** The quantity buttons keep the cart well formed. */
  lemma {:induction false} UpdateQtyKeepsWellFormed(cart: Cart, id: string, delta: int)
    ensures WellFormed(cart) ==> WellFormed(UpdateQty(cart, id, delta))
  {
    if cart != [] && WellFormed(cart) {
      WellFormedTail(cart);
      var rest := UpdateQty(cart[1..], id, delta);
      UpdateQtyKeepsWellFormed(cart[1..], id, delta);
      assert !HasId(rest, cart[0].product.id);
      if cart[0].product.id != id {
        WellFormedCons(cart[0], rest);
      } else if cart[0].qty + delta > 0 {
        WellFormedCons(cart[0].(qty := cart[0].qty + delta), rest);
      }
    }
  }

  /** Changing a product's quantity by `delta`: its units move by `delta` and
      drop to zero (line gone) once they would not stay positive; every other
      product is untouched. */
  lemma {:induction false} UpdateQtyUnits(cart: Cart, id: string, delta: int, x: string)
    requires WellFormed(cart)
    ensures var r := UpdateQty(cart, id, delta);
      Units(r, x) == (if x == id && HasId(cart, id) then (if Units(cart, id) + delta > 0 then Units(cart, id) + delta else 0)
                      else Units(cart, x))
    ensures HasId(UpdateQty(cart, id, delta), id) <==> HasId(cart, id) && Units(cart, id) + delta > 0
  {
    if cart != [] {
      WellFormedTail(cart);
      HasIdCons(cart, id);
      if cart[0].product.id == id {
        UpdateQtyUnitsHead(cart, id, delta, x);
      } else {
        UpdateQtyUnits(cart[1..], id, delta, x);
        UpdateQtyUnits(cart[1..], id, delta, id);
        UpdateQtyUnitsCons(cart, id, delta, x);
      }
    }
  }

  /** `UpdateQtyUnits` past a first line of another product, given it for the tail. */
  lemma UpdateQtyUnitsCons(cart: Cart, id: string, delta: int, x: string)
    requires cart != [] && cart[0].product.id != id
    requires HasId(cart, id) <==> HasId(cart[1..], id)
    requires var t := UpdateQty(cart[1..], id, delta);
      Units(t, x) == (if x == id && HasId(cart[1..], id) then (if Units(cart[1..], id) + delta > 0 then Units(cart[1..], id) + delta else 0)
                      else Units(cart[1..], x))
    requires HasId(UpdateQty(cart[1..], id, delta), id) <==> HasId(cart[1..], id) && Units(cart[1..], id) + delta > 0
    ensures var r := UpdateQty(cart, id, delta);
      Units(r, x) == (if x == id && HasId(cart, id) then (if Units(cart, id) + delta > 0 then Units(cart, id) + delta else 0)
                      else Units(cart, x))
    ensures HasId(UpdateQty(cart, id, delta), id) <==> HasId(cart, id) && Units(cart, id) + delta > 0
  {
    var r := UpdateQty(cart, id, delta);
    assert r[1..] == UpdateQty(cart[1..], id, delta);
    HasIdCons(r, id);
  }

  /** `UpdateQtyUnits` when the product sits on the first line. */
  lemma UpdateQtyUnitsHead(cart: Cart, id: string, delta: int, x: string)
    requires WellFormed(cart) && cart != [] && cart[0].product.id == id
    ensures var r := UpdateQty(cart, id, delta);
      Units(r, x) == (if x == id then (if Units(cart, id) + delta > 0 then Units(cart, id) + delta else 0)
                      else Units(cart, x))
    ensures HasId(UpdateQty(cart, id, delta), id) <==> Units(cart, id) + delta > 0
  {
    WellFormedTail(cart);
    assert UpdateQty(cart[1..], id, delta) == cart[1..];
    HeadChangeUnits(cart, id, delta, x, UpdateQty(cart, id, delta));
  }

  /** Units after the first line, the product's only one, changes by `delta`. */
  lemma HeadChangeUnits(cart: Cart, id: string, delta: int, x: string, r: Cart)
    requires cart != [] && cart[0].product.id == id && !HasId(cart[1..], id)
    requires r == if cart[0].qty + delta > 0 then [cart[0].(qty := cart[0].qty + delta)] + cart[1..] else cart[1..]
    ensures Units(r, x) == (if x == id then (if Units(cart, id) + delta > 0 then Units(cart, id) + delta else 0)
                            else Units(cart, x))
    ensures HasId(r, id) <==> Units(cart, id) + delta > 0
  {
    AbsentHasNoUnits(cart[1..], id);
    if cart[0].qty + delta > 0 {
      assert r[1..] == cart[1..];
      HasIdCons(r, id);
    }
  }

  /** Removing a product takes away all its units and nothing else. */
  lemma {:induction false} RemoveFromCartUnits(cart: Cart, id: string, x: string)
    ensures Units(RemoveFromCart(cart, id), x) == (if x == id then 0 else Units(cart, x))
  {
    if cart != [] {
      RemoveFromCartUnits(cart[1..], id, x);
      if cart[0].product.id != id {
        assert RemoveFromCart(cart, id)[1..] == RemoveFromCart(cart[1..], id);
      }
    }
  }

  /** The trash button keeps the cart well formed. */
  lemma {:induction false} RemoveKeepsWellFormed(cart: Cart, id: string)
    ensures WellFormed(cart) ==> WellFormed(RemoveFromCart(cart, id))
  {
    if cart != [] && WellFormed(cart) {
      WellFormedTail(cart);
      RemoveKeepsWellFormed(cart[1..], id);
      var rest := RemoveFromCart(cart[1..], id);
      RemoveFromCartLines(cart[1..], id);
      if cart[0].product.id != id {
        forall i | 0 <= i < |rest| ensures rest[i].product.id != cart[0].product.id {
          assert rest[i] in cart[1..];
          var j :| 0 <= j < |cart[1..]| && cart[1..][j] == rest[i];
          assert cart[1..][j].product.id != cart[0].product.id;
        }
        WellFormedCons(cart[0], rest);
      }
    }
  }

  /** Every line left after removal was a line of the cart. */
  lemma {:induction false} RemoveFromCartLines(cart: Cart, id: string)
    ensures forall i :: 0 <= i < |RemoveFromCart(cart, id)| ==> RemoveFromCart(cart, id)[i] in cart
  {
    if cart != [] {
      RemoveFromCartLines(cart[1..], id);
      var rest := RemoveFromCart(cart[1..], id);
      forall i | 0 <= i < |rest| ensures rest[i] in cart {
        assert rest[i] in cart[1..];
        var j :| 0 <= j < |cart[1..]| && cart[1..][j] == rest[i];
        assert cart[j + 1] == rest[i];
      }
    }
  }

  /** The trash button is the minus button pressed down to zero: on a well-formed
      cart, removing a product equals lowering it by its whole quantity. */
  lemma RemoveIsUpdateToZero(cart: Cart, id: string)
    requires WellFormed(cart)
    ensures RemoveFromCart(cart, id) == UpdateQty(cart, id, -Units(cart, id))
  {
    if HasId(cart, id) {
      var k :| 0 <= k < |cart| && cart[k].product.id == id;
      UnitsOfLine(cart, k);
      RemoveAtLine(cart, id, k);
      UpdateAtLine(cart, id, -Units(cart, id), k);
      SetQtyAtZero(cart, k, cart[k].qty + -Units(cart, id));
    }
  }

  /** Removal from a well-formed cart cuts out the product's line. */
  lemma RemoveAtLine(cart: Cart, id: string, k: nat)
    requires WellFormed(cart) && k < |cart| && cart[k].product.id == id
    ensures RemoveFromCart(cart, id) == cart[..k] + cart[k + 1..]
  {
    assert SplicedOut(cart, id, RemoveFromCart(cart, id));
  }

  /** A quantity change on a well-formed cart acts on the product's line. */
  lemma UpdateAtLine(cart: Cart, id: string, delta: int, k: nat)
    requires WellFormed(cart) && k < |cart| && cart[k].product.id == id
    ensures UpdateQty(cart, id, delta) == SetQtyAt(cart, k, cart[k].qty + delta)
  {
    assert UpdatedInPlace(cart, id, delta, UpdateQty(cart, id, delta));
  }

  /** A line set to a quantity that is not positive is cut out. */
  lemma SetQtyAtZero(cart: Cart, k: nat, q: int)
    requires k < |cart| && q <= 0
    ensures SetQtyAt(cart, k, q) == cart[..k] + cart[k + 1..]
  {
  }

  /** In a well-formed cart a product's units are the quantity on its one line. */
  lemma {:induction false} UnitsOfLine(cart: Cart, k: nat)
    requires WellFormed(cart) && k < |cart|
    ensures Units(cart, cart[k].product.id) == cart[k].qty
  {
    WellFormedTail(cart);
    if k == 0 {
      AbsentHasNoUnits(cart[1..], cart[0].product.id);
    } else {
      assert cart[1..][k - 1] == cart[k];
      assert cart[0].product.id != cart[k].product.id;
      UnitsOfLine(cart[1..], k - 1);
    }
  }

  lemma {:induction false} BumpSubtotal(cart: Cart, p: Product)
    requires forall i :: 0 <= i < |cart| && cart[i].product.id == p.id ==> cart[i].product == p
    ensures Subtotal(Bump(cart, p.id)) == Subtotal(cart) + LineCount(cart, p.id) * p.price
  {
    if cart != [] {
      var b := Bump(cart, p.id);
      assert b[1..] == Bump(cart[1..], p.id);
      BumpSubtotal(cart[1..], p);
      if cart[0].product.id == p.id {
        assert b[0].product.price * b[0].qty == p.price * cart[0].qty + p.price;
      }
    }
  }

  /** Adding a product that is priced as in the cart raises the subtotal by its price. */
  lemma AddToCartSubtotal(cart: Cart, p: Product)
    requires WellFormed(cart)
    requires forall i :: 0 <= i < |cart| && cart[i].product.id == p.id ==> cart[i].product == p
    ensures Subtotal(AddToCart(cart, p)) == Subtotal(cart) + p.price
  {
    if HasId(cart, p.id) {
      OneLinePerProduct(cart, p.id);
      BumpSubtotal(cart, p);
      assert Subtotal(Bump(cart, p.id)) == Subtotal(cart) + 1 * p.price;
    } else {
      UnitsAppend(cart, Line(p, 1), p.id);
      assert Subtotal(cart + [Line(p, 1)]) == Subtotal(cart) + p.price * 1;
    }
  }

  // ---------------------------------------------------------------------------
  // Totals
  // ---------------------------------------------------------------------------

  datatype Totals = Totals(subtotal: int, tax: int, total: int, count: int)

  /** 11% tax rounded the way `Math.round` rounds. */
  function Tax(subtotal: int): (r: int)
    ensures subtotal as real * 0.11 - 0.5 < r as real <= subtotal as real * 0.11 + 0.5
  {
    MathRound(subtotal as real * 0.11)
  }

  /** No product in the cart has a negative price. */
  predicate NonNegativePrices(cart: Cart) {
    forall i :: 0 <= i < |cart| ==> cart[i].product.price >= 0
  }

  /** The figures the cart panel shows: the total is the subtotal plus 11%,
      within half a rupiah; on a well-formed cart of non-negative prices the
      tax never exceeds the subtotal, and the badge is zero only when the cart
      is empty. */
  function CartTotals(cart: Cart): (t: Totals)
    ensures t.subtotal == Subtotal(cart) && t.count == CartCount(cart)
    ensures t.total == t.subtotal + t.tax
    ensures t.subtotal as real * 1.11 - 0.5 < t.total as real <= t.subtotal as real * 1.11 + 0.5
    ensures WellFormed(cart) && NonNegativePrices(cart) ==> 0 <= t.tax <= t.subtotal <= t.total
    ensures WellFormed(cart) ==> (t.count == 0 <==> cart == [])
  {
    var s := Subtotal(cart);
    var tax := Tax(s);
    assert WellFormed(cart) && NonNegativePrices(cart) ==> 0 <= tax <= s by {
      if WellFormed(cart) && NonNegativePrices(cart) {
        SubtotalNonNegative(cart);
        TaxWithinSubtotal(s);
      }
    }
    assert WellFormed(cart) ==> (CartCount(cart) == 0 <==> cart == []) by {
      if WellFormed(cart) {
        CartCountCoversLines(cart);
      }
    }
    Totals(s, tax, s + tax, CartCount(cart))
  }

  /** With non-negative prices and positive quantities the subtotal is not negative. */
  lemma {:induction false} SubtotalNonNegative(cart: Cart)
    requires NonNegativePrices(cart) && forall i :: 0 <= i < |cart| ==> cart[i].qty >= 1
    ensures Subtotal(cart) >= 0
  {
    if cart != [] {
      forall i | 0 <= i < |cart[1..]|
        ensures cart[1..][i].product.price >= 0 && cart[1..][i].qty >= 1
      {
        assert cart[1..][i] == cart[i + 1];
      }
      SubtotalNonNegative(cart[1..]);
      assert cart[0].product.price * cart[0].qty >= 0;
    }
  }

  /** Every line holds at least one unit, so the badge is at least the line count. */
  lemma {:induction false} CartCountCoversLines(cart: Cart)
    requires forall i :: 0 <= i < |cart| ==> cart[i].qty >= 1
    ensures CartCount(cart) >= |cart|
  {
    if cart != [] {
      forall i | 0 <= i < |cart[1..]| ensures cart[1..][i].qty >= 1 {
        assert cart[1..][i] == cart[i + 1];
      }
      CartCountCoversLines(cart[1..]);
    }
  }

  /** 11% of a non-negative whole amount, rounded, is between zero and the amount. */
  lemma TaxWithinSubtotal(s: int)
    requires s >= 0
    ensures 0 <= Tax(s) <= s
  {
    var t := Tax(s);
    assert t as real > -0.5;
    if s == 0 {
      assert t as real <= 0.5;
    } else {
      assert t as real <= s as real * 0.11 + 0.5 <= s as real;
    }
  }

  /** An empty cart shows zero everywhere. */
  lemma EmptyCartTotals()
    ensures CartTotals([]) == Totals(0, 0, 0, 0)
  {
  }

  /** One coffee and two iced teas: 30000 before tax, 3300 tax, 33300 to pay. */
  lemma TotalsExample()
    ensures CartTotals([Line(Catalog[0], 1), Line(Catalog[3], 2)]) == Totals(30000, 3300, 33300, 3)
  {
    var c := [Line(Catalog[0], 1), Line(Catalog[3], 2)];
    assert c[1..][1..] == [];
    assert Subtotal(c[1..]) == 12000 && CartCount(c[1..]) == 2;
    assert Subtotal(c) == 30000 && CartCount(c) == 3;
    var t := Tax(30000);
    assert 3299.5 < t as real <= 3300.5;
  }

  /** Three coffees, then one minus press: two left, 36000 before tax. */
  lemma QuantityExample()
    ensures var c := UpdateQty(AddTimes([], Catalog[0], 3), "1", -1);
      c == [Line(Catalog[0], 2)] && Subtotal(c) == 36000
  {
    AddTimesFromEmpty(Catalog[0], 3);
    var c := [Line(Catalog[0], 3)];
    assert c[1..] == [];
    assert UpdateQty(c, "1", -1) == [Line(Catalog[0], 2)];
  }

  // ---------------------------------------------------------------------------
  // Product filter
  // ---------------------------------------------------------------------------

  /** ASCII lower-casing of one character. */
  function LowerChar(c: char): (r: char)
    ensures 'A' <= c <= 'Z' ==> r as int == c as int + 32
    ensures !('A' <= c <= 'Z') ==> r == c
  {
    if 'A' <= c <= 'Z' then (c as int + 32) as char else c
  }

  function Lower(s: string): (r: string)
    ensures |r| == |s|
    ensures forall i :: 0 <= i < |s| ==> r[i] == LowerChar(s[i])
  {
    if s == [] then [] else [LowerChar(s[0])] + Lower(s[1..])
  }

  /** `needle` occurs in `hay` starting at position `i`. */
  predicate OccursAt(hay: string, needle: string, i: int) {
    0 <= i <= |hay| - |needle| && hay[i..i + |needle|] == needle
  }

  /** `needle` occurs in `hay` as a contiguous run. */
  predicate Includes(hay: string, needle: string) {
    exists i :: 0 <= i <= |hay| && OccursAt(hay, needle, i)
  }

  /** A product is shown when its lower-cased name contains the lower-cased
      search text and the tab is "Semua" or its own category. */
  predicate Matches(p: Product, search: string, category: string) {
    Includes(Lower(p.name), Lower(search)) && (category == AllCategories || p.category == category)
  }

  /** The products shown for a search text and category tab. */
  function FilterProducts(ps: seq<Product>, search: string, category: string): (r: seq<Product>)
    ensures |r| <= |ps|
    ensures forall p :: p in r <==> p in ps && Matches(p, search, category)
  {
    if ps == [] then []
    else if Matches(ps[0], search, category) then [ps[0]] + FilterProducts(ps[1..], search, category)
    else FilterProducts(ps[1..], search, category)
  }

  /** `a` is `b` with some elements left out, order kept. */
  predicate IsSubsequence<T(==)>(a: seq<T>, b: seq<T>)
    decreases |b|
  {
    if a == [] then true
    else if b == [] then false
    else (a[0] == b[0] && IsSubsequence(a[1..], b[1..])) || IsSubsequence(a, b[1..])
  }

  /** The grid lists the matching products in catalogue order. */
  lemma {:induction false} FilterKeepsOrder(ps: seq<Product>, search: string, category: string)
    ensures IsSubsequence(FilterProducts(ps, search, category), ps)
  {
    if ps != [] {
      FilterKeepsOrder(ps[1..], search, category);
      var r := FilterProducts(ps, search, category);
      if Matches(ps[0], search, category) {
        assert r[1..] == FilterProducts(ps[1..], search, category);
      }
    }
  }

  /** The empty search under "Semua" shows the whole catalogue. */
  lemma {:induction false} EmptySearchShowsAll(ps: seq<Product>)
    ensures FilterProducts(ps, "", AllCategories) == ps
  {
    if ps != [] {
      assert OccursAt(Lower(ps[0].name), Lower(""), 0);
      EmptySearchShowsAll(ps[1..]);
    }
  }

  /** A tab other than "Semua" that no product belongs to shows nothing. */
  lemma {:induction false} UnusedCategoryShowsNothing(ps: seq<Product>, search: string, category: string)
    requires category != AllCategories
    requires forall i :: 0 <= i < |ps| ==> ps[i].category != category
    ensures FilterProducts(ps, search, category) == []
  {
    if ps != [] {
      UnusedCategoryShowsNothing(ps[1..], search, category);
    }
  }

  /** No catalogue product is in the "Promo" category, so that tab is empty. */
  lemma PromoShowsNothing(search: string)
    ensures FilterProducts(Catalog, search, "Promo") == []
  {
    var promo := "Promo";
    forall i | 0 <= i < |Catalog| ensures Catalog[i].category != promo {
      assert Catalog[i].category[0] != promo[0];
    }
    assert AllCategories[0] != promo[0];
    UnusedCategoryShowsNothing(Catalog, search, promo);
  }

  lemma LowerIdempotent(s: string)
    ensures Lower(Lower(s)) == Lower(s)
  {
    forall i | 0 <= i < |s| ensures Lower(Lower(s))[i] == Lower(s)[i] {
      var c := s[i];
      if 'A' <= c <= 'Z' {
        assert 'a' <= LowerChar(c) <= 'z';
      }
    }
  }

  /** The search ignores the case of what is typed. */
  lemma {:induction false} SearchIgnoresCase(ps: seq<Product>, search: string, category: string)
    ensures FilterProducts(ps, Lower(search), category) == FilterProducts(ps, search, category)
  {
    LowerIdempotent(search);
    if ps != [] {
      SearchIgnoresCase(ps[1..], search, category);
    }
  }

  /** A product whose name starts with the search text, ignoring case, is
      listed under "Semua". */
  lemma PrefixSearchFinds(ps: seq<Product>, p: Product, search: string)
    requires p in ps
    requires |search| <= |p.name|
    requires forall k :: 0 <= k < |search| ==> LowerChar(p.name[k]) == LowerChar(search[k])
    ensures p in FilterProducts(ps, search, AllCategories)
  {
    var ln := Lower(p.name);
    var ls := Lower(search);
    assert ln[0..|ls|] == ls;
    assert OccursAt(ln, ls, 0);
  }

  /** Typing "KOPI" finds the palm-sugar coffee. */
  lemma CoffeeSearchExample()
    ensures Catalog[0] in FilterProducts(Catalog, "KOPI", AllCategories)
  {
    var coffee := Catalog[0];
    assert coffee.name[..4] == "Kopi";
    PrefixSearchFinds(Catalog, coffee, "KOPI");
  }
}

=== FILE: pos_checkout.dfy ===
/** The cashier screen's checkout flow: entering the screen, the pay button,
    and the two timers that complete a payment. The screen keeps two
    independent flags (payment in progress, success shown) and every
    `setTimeout` callback it has scheduled; the success overlay covers the cart
    panel for the pointer only, so a keyboard can still reach the pay button
    while success shows. */
module PosCheckout {
  import opened Results
  import opened Schemas
  import opened Session
  import opened PosCart

  /** A scheduled callback of `handlePayment`: payment done (after 1.5 s) and
      success overlay gone (2 s after that). */
  datatype Timer = PaymentDone | SuccessDone

  /** How a control of the cart panel is activated. */
  datatype Input = Pointer | Keyboard

  /** What the checkout flow keeps: the cart, the two flags, the callbacks not
      yet run, and the order number. */
  datatype Pos = Pos(cart: Cart, processing: bool, success: bool, pending: seq<Timer>, orderNumber: int)

  /** The user's actions, and `Fire(i)`: the pending callback at index `i`
      runs. Callbacks may run in any order, which covers every timing. */
  datatype Event =
    | AddProduct(product: Product)
    | ChangeQty(id: string, delta: int, via: Input)
    | RemoveProduct(id: string, via: Input)
    | Pay(via: Input)
    | Fire(index: nat)

  /** The starting order number: a uniform draw `rnd` in [0, 1) scaled to
      four digits. */
  function SeedOrderNumber(rnd: real): (r: int)
    requires 0.0 <= rnd < 1.0
    ensures 1000 <= r <= 9999
  {
    (rnd * 9000.0).Floor + 1000
  }

  /** Opening the screen: only a stored cashier session gets a fresh, empty,
      idle checkout with nothing scheduled; anyone else is sent to the login
      route. */
  function Enter(b: Browser, rnd: real): (r: (Browser, Option<Pos>))
    requires 0.0 <= rnd < 1.0
    ensures r.1.Some? <==> EntryGuard(b, CASHIER).1.Some?
    ensures r.0 == EntryGuard(b, CASHIER).0
    ensures r.1.Some? ==> r.1.value.cart == [] && PhaseOf(r.1.value) == Idle && Consistent(r.1.value)
    ensures r.1.Some? ==> 1000 <= r.1.value.orderNumber <= 9999
  {
    var (after, user) := EntryGuard(b, CASHIER);
    if user.None? then (after, None)
    else (after, Some(Pos([], false, false, [], SeedOrderNumber(rnd))))
  }

  /** The pay button's `disabled` test, negated: the cart has lines and no
      payment is in progress. */
  predicate PayEnabled(s: Pos) {
    |s.cart| > 0 && !s.processing
  }

  /** The success overlay stops the pointer, not the keyboard, from reaching
      the cart panel; the product grid is never covered. */
  predicate CartPanelReachable(s: Pos, via: Input) {
    !(s.success && via.Pointer?)
  }

  /** `Fire(i)` runs the callback that clears the sale. */
  predicate FiresSuccess(s: Pos, e: Event) {
    e.Fire? && e.index < |s.pending| && s.pending[e.index] == SuccessDone
  }

  /** `Fire(i)` runs the callback that ends the payment. */
  predicate FiresPayment(s: Pos, e: Event) {
    e.Fire? && e.index < |s.pending| && s.pending[e.index] == PaymentDone
  }

  /** The sequence without its element at `i`. */
  function Without(ts: seq<Timer>, i: nat): (r: seq<Timer>)
    requires i < |ts|
    ensures |r| == |ts| - 1
    ensures multiset(r) + multiset{ts[i]} == multiset(ts)
  {
    assert ts == ts[..i] + [ts[i]] + ts[i + 1..];
    ts[..i] + ts[i + 1..]
  }

  /** An edit of the cart from the product grid or the cart panel. */
  predicate IsCartEdit(e: Event) {
    e.AddProduct? || e.ChangeQty? || e.RemoveProduct?
  }

  /** One event as the screen handles it. */
  function Step(s: Pos, e: Event): (r: Pos)
    ensures IsCartEdit(e) ==>
      r.processing == s.processing && r.success == s.success && r.pending == s.pending && r.orderNumber == s.orderNumber
    ensures e.AddProduct? ==> r.cart == AddToCart(s.cart, e.product)
    ensures (e.ChangeQty? || e.RemoveProduct?) && s.success && e.via.Pointer? ==> r == s
    ensures e.ChangeQty? && CartPanelReachable(s, e.via) ==> r.cart == UpdateQty(s.cart, e.id, e.delta)
    ensures e.RemoveProduct? && CartPanelReachable(s, e.via) ==> r.cart == RemoveFromCart(s.cart, e.id)
    ensures r.orderNumber == s.orderNumber + (if FiresSuccess(s, e) then 1 else 0)
    ensures r.processing && !s.processing ==> e.Pay? && PayEnabled(s) && CartPanelReachable(s, e.via)
    ensures r.success && !s.success ==> FiresPayment(s, e) && !r.processing
    ensures (e.Pay? || FiresPayment(s, e)) ==> r.cart == s.cart
    ensures FiresSuccess(s, e) ==> r.cart == [] && !r.success
    ensures e.Pay? ==> r.pending == s.pending || r.pending == s.pending + [PaymentDone]
    ensures e.Fire? && e.index < |s.pending| ==> |r.pending| == |s.pending| - (if FiresSuccess(s, e) then 1 else 0)
    ensures WellFormed(s.cart) ==> WellFormed(r.cart)
  {
    match e
    case AddProduct(p) => s.(cart := AddToCart(s.cart, p))
    case ChangeQty(id, delta, via) =>
      if CartPanelReachable(s, via) then
        UpdateQtyKeepsWellFormed(s.cart, id, delta);
        s.(cart := UpdateQty(s.cart, id, delta))
      else s
    case RemoveProduct(id, via) =>
      if CartPanelReachable(s, via) then
        RemoveKeepsWellFormed(s.cart, id);
        s.(cart := RemoveFromCart(s.cart, id))
      else s
    case Pay(via) =>
      if CartPanelReachable(s, via) && PayEnabled(s) then
        s.(processing := true, pending := s.pending + [PaymentDone])
      else s
    case Fire(i) =>
      if i >= |s.pending| then s
      else
        var rest := Without(s.pending, i);
        match s.pending[i]
        case PaymentDone => s.(processing := false, success := true, pending := rest + [SuccessDone])
        case SuccessDone => s.(success := false, cart := [], pending := rest, orderNumber := s.orderNumber + 1)
  }

  function Run(s: Pos, es: seq<Event>): Pos
    decreases |es|
  {
    if es == [] then s else Run(Step(s, es[0]), es[1..])
  }

  /** Every reachable cart is well formed, and the order number only grows,
      by at most one per event. */
  lemma {:induction false} RunInvariant(s: Pos, es: seq<Event>)
    requires WellFormed(s.cart)
    ensures WellFormed(Run(s, es).cart)
    ensures s.orderNumber <= Run(s, es).orderNumber <= s.orderNumber + |es|
    decreases |es|
  {
    if es != [] {
      RunInvariant(Step(s, es[0]), es[1..]);
    }
  }

  /** A full checkout from an idle screen with a non-empty cart, by either
      input: the cart is kept while the payment runs and while success shows,
      then cleared, and the order number moves on by one. */
  lemma CheckoutCycle(s: Pos, via: Input)
    requires !s.processing && !s.success && s.pending == [] && |s.cart| > 0
    ensures var s1 := Step(s, Pay(via));
      var s2 := Step(s1, Fire(0));
      && s1 == s.(processing := true, pending := [PaymentDone])
      && s2 == s.(success := true, pending := [SuccessDone])
      && Step(s2, Fire(0)) == Pos([], false, false, [], s.orderNumber + 1)
  {
    var s1 := Step(s, Pay(via));
    assert s1.pending == [PaymentDone];
    assert Without([PaymentDone], 0) == [];
    assert Without([SuccessDone], 0) == [];
  }

  /** The pay button does nothing on an empty cart. */
  lemma EmptyCartCannotPay(s: Pos, via: Input)
    requires s.cart == []
    ensures Step(s, Pay(via)) == s
  {
  }

  /** While a payment is in progress a second one cannot be started, by any
      input. */
  lemma NoDoubleSubmit(s: Pos, via: Input)
    requires s.processing
    ensures Step(s, Pay(via)) == s
  {
  }

  /** The overlay stops a pointer press on the pay button while success shows. */
  lemma PointerPayBlockedDuringSuccess(s: Pos)
    requires s.success
    ensures Step(s, Pay(Pointer)) == s
  {
  }

  /** The cart panel stays live while a payment runs: a line removed in that
      window is gone and the payment still completes, on an empty cart. */
  lemma EmptiedDuringPayment(p: Product, n: int)
    ensures Run(Pos([Line(p, 1)], false, false, [], n), [Pay(Pointer), RemoveProduct(p.id, Pointer), Fire(0)])
      == Pos([], false, true, [SuccessDone], n)
  {
    var s0 := Pos([Line(p, 1)], false, false, [], n);
    var s1 := Step(s0, Pay(Pointer));
    assert s1 == Pos([Line(p, 1)], true, false, [PaymentDone], n);
    var s2 := Step(s1, RemoveProduct(p.id, Pointer));
    assert [Line(p, 1)][1..] == [];
    assert s2 == Pos([], true, false, [PaymentDone], n);
    assert Without([PaymentDone], 0) == [];
    assert Run(s0, [Pay(Pointer), RemoveProduct(p.id, Pointer), Fire(0)]) == Run(s1, [RemoveProduct(p.id, Pointer), Fire(0)]);
    assert Run(s1, [RemoveProduct(p.id, Pointer), Fire(0)]) == Run(s2, [Fire(0)]);
  }

  // ---------------------------------------------------------------------------
  // The pay button while success shows
  // ---------------------------------------------------------------------------

  datatype Phase = Idle | Processing | Success

  /** The phase the screen shows: spinner, success overlay, or neither. */
  function PhaseOf(s: Pos): Phase {
    if s.processing then Processing else if s.success then Success else Idle
  }

  /** A screen running at most one payment: the flags are never both set and
      exactly the callback of the current phase is pending. */
  predicate Consistent(s: Pos) {
    && !(s.processing && s.success)
    && (s.processing ==> s.pending == [PaymentDone])
    && (s.success ==> s.pending == [SuccessDone])
    && (!s.processing && !s.success ==> s.pending == [])
  }

  /** The phase order a payment runs through. */
  predicate NextPhase(a: Phase, b: Phase) {
    (a.Idle? && b.Processing?) || (a.Processing? && b.Success?) || (a.Success? && b.Idle?)
  }

  /** As written, a keyboard press on the pay button while success shows starts
      a second payment: both flags are set and two callbacks are pending. */
  lemma KeyboardPayDuringSuccess(s: Pos)
    requires Consistent(s) && s.success && |s.cart| > 0
    ensures var r := Step(s, Pay(Keyboard));
      r.processing && r.success && r.pending == [SuccessDone, PaymentDone] && !Consistent(r)
  {
  }

  /** The whole run: one sale paid by pointer, then the pay button reached
      with Tab and pressed by keyboard while success shows. The first sale's callback clears
      the cart while the second payment is still in progress, and one sale
      advances the order number by two. */
  lemma KeyboardPayDoubleCounts(p: Product, n: int)
    ensures var s0 := Pos([Line(p, 1)], false, false, [], n);
      var s3 := Run(s0, [Pay(Pointer), Fire(0), Pay(Keyboard), Fire(0)]);
      && s3 == Pos([], true, false, [PaymentDone], n + 1)
      && Run(s3, [Fire(0), Fire(0)]) == Pos([], false, false, [], n + 2)
  {
    var s0 := Pos([Line(p, 1)], false, false, [], n);
    var s1 := Step(s0, Pay(Pointer));
    assert s1 == Pos([Line(p, 1)], true, false, [PaymentDone], n);
    assert Without([PaymentDone], 0) == [];
    var s2 := Step(s1, Fire(0));
    assert s2 == Pos([Line(p, 1)], false, true, [SuccessDone], n);
    var s3 := Step(s2, Pay(Keyboard));
    assert s3 == Pos([Line(p, 1)], true, true, [SuccessDone, PaymentDone], n);
    assert Without([SuccessDone, PaymentDone], 0) == [PaymentDone];
    var s4 := Step(s3, Fire(0));
    assert s4 == Pos([], true, false, [PaymentDone], n + 1);
    var s5 := Step(s4, Fire(0));
    assert s5 == Pos([], false, true, [SuccessDone], n + 1);
    assert Without([SuccessDone], 0) == [];
    assert Step(s5, Fire(0)) == Pos([], false, false, [], n + 2);
    assert Run(s0, [Pay(Pointer), Fire(0), Pay(Keyboard), Fire(0)]) == Run(s1, [Fire(0), Pay(Keyboard), Fire(0)]);
    assert Run(s1, [Fire(0), Pay(Keyboard), Fire(0)]) == Run(s2, [Pay(Keyboard), Fire(0)]);
    assert Run(s2, [Pay(Keyboard), Fire(0)]) == Run(s3, [Fire(0)]);
    assert Run(s3, [Fire(0)]) == s4;
    assert Run(s4, [Fire(0), Fire(0)]) == Run(s5, [Fire(0)]);
  }

  /** The pay button disabled while success shows as well (the overlay's
      evident purpose); every other event is handled as written. */
  function StepGuarded(s: Pos, e: Event): (r: Pos)
    ensures Consistent(s) ==> Consistent(r)
    ensures Consistent(s) ==> PhaseOf(r) == PhaseOf(s) || NextPhase(PhaseOf(s), PhaseOf(r))
    ensures e.Pay? && s.success ==> r == s
  {
    if e.Pay? && s.success then s
    else
      var r := Step(s, e);
      assert Consistent(s) ==> Consistent(r) && (PhaseOf(r) == PhaseOf(s) || NextPhase(PhaseOf(s), PhaseOf(r))) by {
        if Consistent(s) {
          StepKeepsConsistent(s, e);
        }
      }
      r
  }

  /** The steps `StepGuarded` hands to `Step` keep one payment at a time and
      move through the phases in order. */
  lemma StepKeepsConsistent(s: Pos, e: Event)
    requires Consistent(s) && !(e.Pay? && s.success)
    ensures Consistent(Step(s, e))
    ensures PhaseOf(Step(s, e)) == PhaseOf(s) || NextPhase(PhaseOf(s), PhaseOf(Step(s, e)))
  {
    match e
    case Fire(i) =>
      if i < |s.pending| {
        assert i == 0;
        assert Without(s.pending, 0) == [];
      }
    case _ =>
  }

  /** The corrected screen differs from the screen as written exactly on a
      keyboard press of the enabled pay button while success shows. */
  lemma GuardedAgrees(s: Pos, e: Event)
    ensures StepGuarded(s, e) == Step(s, e) <==> !(e.Pay? && e.via.Keyboard? && s.success && PayEnabled(s))
  {
  }

  function RunGuarded(s: Pos, es: seq<Event>): Pos
    decreases |es|
  {
    if es == [] then s else RunGuarded(StepGuarded(s, es[0]), es[1..])
  }

  /** With the corrected guard every run from a consistent screen stays
      consistent, so one payment runs at a time. */
  lemma {:induction false} RunGuardedConsistent(s: Pos, es: seq<Event>)
    requires Consistent(s)
    ensures Consistent(RunGuarded(s, es))
    decreases |es|
  {
    if es != [] {
      RunGuardedConsistent(StepGuarded(s, es[0]), es[1..]);
    }
  }

  /** The keyboard run that double-counts as written counts once with the
      corrected guard. */
  lemma KeyboardPayGuarded(p: Product, n: int)
    ensures RunGuarded(Pos([Line(p, 1)], false, false, [], n),
                       [Pay(Pointer), Fire(0), Pay(Keyboard), Fire(0), Fire(0), Fire(0)])
      == Pos([], false, false, [], n + 1)
  {
    var s0 := Pos([Line(p, 1)], false, false, [], n);
    var s1 := StepGuarded(s0, Pay(Pointer));
    assert s1 == Pos([Line(p, 1)], true, false, [PaymentDone], n);
    assert Without([PaymentDone], 0) == [];
    var s2 := StepGuarded(s1, Fire(0));
    assert s2 == Pos([Line(p, 1)], false, true, [SuccessDone], n);
    assert StepGuarded(s2, Pay(Keyboard)) == s2;
    assert Without([SuccessDone], 0) == [];
    var s4 := StepGuarded(s2, Fire(0));
    assert s4 == Pos([], false, false, [], n + 1);
    assert StepGuarded(s4, Fire(0)) == s4;
    assert RunGuarded(s0, [Pay(Pointer), Fire(0), Pay(Keyboard), Fire(0), Fire(0), Fire(0)])
      == RunGuarded(s1, [Fire(0), Pay(Keyboard), Fire(0), Fire(0), Fire(0)]);
    assert RunGuarded(s1, [Fire(0), Pay(Keyboard), Fire(0), Fire(0), Fire(0)])
      == RunGuarded(s2, [Pay(Keyboard), Fire(0), Fire(0), Fire(0)]);
    assert RunGuarded(s2, [Pay(Keyboard), Fire(0), Fire(0), Fire(0)])
      == RunGuarded(s2, [Fire(0), Fire(0), Fire(0)]);
    assert RunGuarded(s2, [Fire(0), Fire(0), Fire(0)]) == RunGuarded(s4, [Fire(0), Fire(0)]);
    assert RunGuarded(s4, [Fire(0), Fire(0)]) == RunGuarded(s4, [Fire(0)]);
  }
}

=== FILE: results.dfy ===
/** Failure-carrying values shared by every module of the model. */
module Results {

  /** A value that may be absent (Python `None`, a missing dictionary key,
      an empty database result). */
  datatype Option<+T> = None | Some(value: T) {
    function GetOr(default: T): T {
      match this
      case Some(v) => v
      case None => default
    }
  }

  /** The outcome of an operation that either succeeds with a value or
      fails with an error (an exception in the source). */
  datatype Result<+T, +E> = Ok(value: T) | Err(error: E)
}

=== FILE: schemas.dfy ===
/** The typed records and closed enumerations of the point-of-sale API
    (pydantic models). Field constraints become subset types. */
module Schemas {
  import opened Results

  datatype PaymentType = CASH | QRIS | CARD | EWALLET

  datatype PaymentStatus = PENDING | PAID | FAILED | REFUNDED

  datatype DiscountType = PERCENTAGE | FIXED

  datatype MemberType = REGULAR | SILVER | GOLD | PLATINUM

  datatype UserRole = CASHIER | OWNER | ADMIN

  /** `Field(ge=1)`: a line quantity is at least one. */
  type Quantity = q: int | q >= 1 witness 1

  /** One line of a server-side cart. Money fields are exact decimals. */
  datatype CartItem = CartItem(
    product_id: string,
    product_name: string,
    product_sku: string,
    quantity: Quantity,
    unit_price: real,
    unit_cost: Option<real>,
    subtotal: real)

  datatype CartRequest = CartRequest(tenant_id: string, user_id: string)

  /** The requested quantity is at least one and defaults to one. */
  datatype AddItemRequest = AddItemRequest(product_id: string, quantity: Quantity := 1)

  datatype ApplyDiscountRequest = ApplyDiscountRequest(discount_code: string)

  /** Points to redeem are never negative (`Field(ge=0)`). */
  datatype ApplyLoyaltyRequest = ApplyLoyaltyRequest(customer_id: string, points_to_redeem: nat)

  /** The result of the calculation pipeline; every stage is stored explicitly. */
  datatype FinancialBreakdown = FinancialBreakdown(
    gross_sales: real,
    subtotal_after_discount: real,
    dpp: real,
    tax_rate: real,
    tax_amount: real,
    grand_total: real,
    item_discounts: real := 0.0,
    transaction_discount: real := 0.0,
    total_discount: real := 0.0,
    loyalty_redemption: real := 0.0,
    points_earned: int := 0)

  datatype FinalizeTransactionRequest =
    FinalizeTransactionRequest(payment_type: PaymentType, amount_received: Option<real> := None)

  datatype TransactionResponse = TransactionResponse(
    id: string,
    invoice_no: string,
    breakdown: FinancialBreakdown,
    payment_type: PaymentType,
    payment_status: PaymentStatus,
    change_amount: real := 0.0)

  /** An instant on the wall clock, as an ordered count of ticks. */
  type Timestamp = int

  /** `DiscountCreate`: the discount fields a tenant submits. The minimum
      purchase defaults to zero; the cap and the usage limit are optional. */
  datatype DiscountCreate = DiscountCreate(
    tenant_id: string,
    code: string,
    name: string,
    kind: DiscountType,
    value: real,
    min_purchase: real := 0.0,
    max_discount: Option<real> := None,
    usage_limit: Option<int> := None,
    valid_from: Option<Timestamp> := None,
    valid_until: Option<Timestamp> := None)

  /** An `HTTPException`: the status code and the detail message. */
  datatype HttpError = HttpError(status: int, detail: string)

  /** `DiscountResponse`: a row of the discounts table. */
  datatype DiscountRecord = DiscountRecord(
    id: string,
    tenant_id: string,
    code: string,
    name: string,
    kind: DiscountType,
    value: real,
    min_purchase: real,
    max_discount: Option<real>,
    usage_limit: Option<int>,
    usage_count: int,
    valid_from: Option<Timestamp>,
    valid_until: Option<Timestamp>,
    is_active: bool)

  /** The wire names of the user roles. */
  function RoleName(role: UserRole): string {
    match role
    case CASHIER => "CASHIER"
    case OWNER => "OWNER"
    case ADMIN => "ADMIN"
  }

  /** Distinct roles have distinct wire names, so comparing the stored role
      string identifies the role. */
  lemma RoleNameInjective(a: UserRole, b: UserRole)
    requires a != b
    ensures RoleName(a) != RoleName(b)
  {
  }
}

=== FILE: session.dfy ===
/** The browser session shared by the login screen and the role screens: the
    "user" entry of local storage, the route map and the entry guard. */
module Session {
  import opened Results
  import opened Schemas

  /** The stored session object `{email, role, name}`; the role is kept as the
      raw string the screens compare against. */
  datatype User = User(email: string, role: string, name: string)

  /** Local storage (already parsed) and the current route. */
  datatype Browser = Browser(storage: map<string, User>, location: string)

  const UserKey: string := "user"
  const LoginRoute: string := "/"

  /** The screen each role lands on. */
  function RouteFor(role: UserRole): (route: string)
    ensures route != LoginRoute
  {
    match role
    case CASHIER => "/pos"
    case OWNER => "/dashboard"
    case ADMIN => "/admin"
  }

  /** Different roles land on different screens. */
  lemma RoutesDistinct(a: UserRole, b: UserRole)
    requires a != b
    ensures RouteFor(a) != RouteFor(b)
  {
  }

  /** Writes the session and navigates to the role's screen: afterwards every
      role screen admits exactly the roles whose name the user carries, other
      storage entries are as before, and logging out restores them. */
  function SignIn(b: Browser, user: User, role: UserRole): (r: Browser)
    ensures r.location == RouteFor(role)
    ensures forall q :: EntryGuard(r, q).1 == (if user.role == RoleName(q) then Some(user) else None)
    ensures forall k :: k != UserKey ==> (k in r.storage <==> k in b.storage)
    ensures forall k :: k != UserKey && k in b.storage ==> r.storage[k] == b.storage[k]
    ensures Logout(r).storage == b.storage - {UserKey}
  {
    Browser(b.storage[UserKey := user], RouteFor(role))
  }

  /** The entry check of a role screen: with no stored session, or one whose
      role differs, it navigates to the login route and the screen renders
      nothing (`None`); otherwise it renders for the stored user. */
  function EntryGuard(b: Browser, required: UserRole): (r: (Browser, Option<User>))
    ensures r.1.Some? <==> UserKey in b.storage && b.storage[UserKey].role == RoleName(required)
    ensures r.1.Some? ==> r.1.value == b.storage[UserKey] && r.0 == b
    ensures r.1.None? ==> r.0 == b.(location := LoginRoute)
  {
    if UserKey !in b.storage then (b.(location := LoginRoute), None)
    else if b.storage[UserKey].role != RoleName(required) then (b.(location := LoginRoute), None)
    else (b, Some(b.storage[UserKey]))
  }

  /** `handleLogout`: removes only the "user" entry and goes to the login route. */
  function Logout(b: Browser): (r: Browser)
    ensures UserKey !in r.storage
    ensures forall k :: k != UserKey ==> (k in r.storage <==> k in b.storage)
    ensures forall k :: k in r.storage ==> r.storage[k] == b.storage[k]
    ensures r.location == LoginRoute
  {
    Browser(b.storage - {UserKey}, LoginRoute)
  }

  /** After logging out, every role screen turns the visitor away. */
  lemma LogoutThenGuardRedirects(b: Browser, role: UserRole)
    ensures EntryGuard(Logout(b), role) == (Logout(b), None)
  {
  }
}

=== FILE: transactions.dfy ===
/** The cart handlers of the transaction API. Carts live in an in-memory map
    keyed by cart id; every handler is a transition of that map. Records the
    handlers fetch from the database (product, customer) are inputs, the
    discounts table is a parameter, and fresh ids and clock readings are
    inputs as well. */
module Transactions {
  import opened Results
  import opened Schemas
  import Engine = CalculationEngine
  import Discounts

  /** A server-side cart: its lines plus the discount and loyalty choices. */
  datatype Cart = Cart(
    id: string,
    tenant_id: string,
    user_id: string,
    items: seq<CartItem>,
    customer_id: Option<string>,
    discount_code: Option<string>,
    discount_type: Option<DiscountType>,
    discount_value: Option<real>,
    max_discount: Option<real>,
    points_redeemed: int,
    member_type: MemberType,
    created_at: Timestamp)

  type Carts = map<string, Cart>

  /** A row of the products table, as far as the handlers read it. */
  datatype ProductRecord = ProductRecord(id: string, name: string, sku: Option<string>,
                                         price: real, cost: Option<real>)

  /** A row of the customers table, as far as the handlers read it. */
  datatype CustomerRecord = CustomerRecord(id: string, name: string, points: int,
                                           member_type: Option<MemberType>)

  /** The JSON bodies of successful replies. */
  datatype Body =
    | CartCreated(cart_id: string)
    | Message(text: string, cart_id: string)
    | DiscountApplied(discount_code: string)
    | LoyaltyApplied(customer_name: string, points_redeemed: int, points_remaining: int)
    | Finalized(transaction: TransactionResponse)

  /** A successful reply: the new cart map and the body sent back. */
  datatype Reply = Reply(carts: Carts, body: Body)

  const CartNotFound := HttpError(404, "Cart not found")
  const CartEmpty := HttpError(400, "Cart is empty")

  /** The engine every handler builds: the default configuration. */
  const Settings := Engine.Config()

  // ------------------------------------------------------------ invariants

  /** No two lines of a cart share a product id. */
  predicate UniqueIds(items: seq<CartItem>) {
    forall i, j :: 0 <= i < j < |items| ==> items[i].product_id != items[j].product_id
  }

  /** Every stored cart is filed under its own id and has unique lines. */
  predicate WellFormed(carts: Carts) {
    forall id :: id in carts ==> carts[id].id == id && UniqueIds(carts[id].items)
  }

  /** Units of product `pid` in the cart, over all its lines. */
  function QuantityOf(items: seq<CartItem>, pid: string): int {
    if |items| == 0 then 0
    else (if items[0].product_id == pid then items[0].quantity else 0) + QuantityOf(items[1..], pid)
  }

  // ------------------------------------------------------------ create_cart

  function NewCart(cartId: string, req: CartRequest, now: Timestamp): Cart {
    Cart(cartId, req.tenant_id, req.user_id, [], None, None, None, None, None, 0, REGULAR, now)
  }

  /** `create_cart`: files an empty cart under the fresh id. */
  function CreateCart(carts: Carts, cartId: string, req: CartRequest, now: Timestamp): (r: Reply)
    ensures r.body == CartCreated(cartId)
    ensures r.carts.Keys == carts.Keys + {cartId}
    ensures forall id :: id in carts && id != cartId ==> r.carts[id] == carts[id]
    ensures var c := r.carts[cartId];
      && c.id == cartId && c.tenant_id == req.tenant_id && c.user_id == req.user_id
      && c.items == [] && c.customer_id.None? && c.discount_code.None?
      && c.discount_type.None? && c.discount_value.None? && c.max_discount.None?
      && c.points_redeemed == 0 && c.member_type == REGULAR
    ensures WellFormed(carts) ==> WellFormed(r.carts)
  {
    Reply(carts[cartId := NewCart(cartId, req, now)], CartCreated(cartId))
  }

  // ------------------------------------------------------------ add_item

  /** The first line holding product `pid`, if any. */
  function IndexOf(items: seq<CartItem>, pid: string): (r: Option<nat>)
    ensures r.Some? ==> r.value < |items| && items[r.value].product_id == pid
    ensures r.Some? ==> forall j :: 0 <= j < r.value ==> items[j].product_id != pid
    ensures r.None? ==> forall j :: 0 <= j < |items| ==> items[j].product_id != pid
  {
    if |items| == 0 then None
    else if items[0].product_id == pid then Some(0)
    else
      match IndexOf(items[1..], pid)
      case None => None
      case Some(k) => Some(k + 1)
  }

  /** The line a product enters the cart with: its subtotal is rounded; a
      missing or zero cost is recorded as unknown. */
  function NewLine(p: ProductRecord, quantity: Quantity): CartItem {
    CartItem(p.id, p.name, p.sku.GetOr(""), quantity, p.price,
             if p.cost.Some? && p.cost.value != 0.0 then p.cost else None,
             Engine.ItemSubtotal(p.price, quantity))
  }

  /** Adding `quantity` of product `pid` (record `p`): an existing line grows and
      its subtotal becomes the unrounded price times the new quantity; otherwise
      exactly one new line is appended. */
  function AddLine(items: seq<CartItem>, pid: string, p: ProductRecord, quantity: Quantity): (r: seq<CartItem>)
    ensures IndexOf(items, pid).Some? ==>
      var i := IndexOf(items, pid).value;
      && |r| == |items|
      && r[i].quantity == items[i].quantity + quantity
      && r[i].subtotal == p.price * r[i].quantity as real
      && r[i].product_id == pid
      && (forall j :: 0 <= j < |items| && j != i ==> r[j] == items[j])
    ensures IndexOf(items, pid).None? ==>
      && |r| == |items| + 1
      && r[..|items|] == items
      && r[|items|].quantity == quantity
      && r[|items|].subtotal == Engine.ItemSubtotal(p.price, quantity)
      && r[|items|].product_id == p.id
  {
    match IndexOf(items, pid)
    case Some(i) =>
      var q := items[i].quantity + quantity;
      items[i := items[i].(quantity := q, subtotal := p.price * q as real)]
    case None =>
      items + [NewLine(p, quantity)]
  }

  /** Adding keeps product ids unique when the record is the one looked up. */
  lemma AddLineKeepsUnique(items: seq<CartItem>, p: ProductRecord, quantity: Quantity)
    requires UniqueIds(items)
    ensures UniqueIds(AddLine(items, p.id, p, quantity))
  {
  }

  /** Adding raises the units of that product by exactly the requested amount
      and leaves every other product's units alone. */
  lemma AddLineQuantity(items: seq<CartItem>, p: ProductRecord, quantity: Quantity, x: string)
    ensures QuantityOf(AddLine(items, p.id, p, quantity), x)
            == QuantityOf(items, x) + (if x == p.id then quantity else 0)
  {
    match IndexOf(items, p.id)
    case Some(i) =>
      var r := AddLine(items, p.id, p, quantity);
      assert r == items[i := r[i]];
      QuantityOfUpdate(items, i, r[i], x);
    case None =>
      QuantityOfAppend(items, [NewLine(p, quantity)], x);
  }

  lemma {:induction false} QuantityOfAppend(a: seq<CartItem>, b: seq<CartItem>, x: string)
    ensures QuantityOf(a + b, x) == QuantityOf(a, x) + QuantityOf(b, x)
  {
    if |a| == 0 {
      assert a + b == b;
    } else {
      assert (a + b)[1..] == a[1..] + b;
      QuantityOfAppend(a[1..], b, x);
    }
  }

  lemma {:induction false} QuantityOfUpdate(items: seq<CartItem>, i: nat, line: CartItem, x: string)
    requires i < |items| && line.product_id == items[i].product_id
    ensures QuantityOf(items[i := line], x)
            == QuantityOf(items, x) + (if x == line.product_id then line.quantity - items[i].quantity else 0)
  {
    if i == 0 {
      assert items[i := line][1..] == items[1..];
    } else {
      assert items[i := line][1..] == items[1..][i - 1 := line];
      QuantityOfUpdate(items[1..], i - 1, line, x);
    }
  }

  /** The reply of an exception no handler catches. */
  const InternalError := HttpError(500, "Internal Server Error")

  /** The request would build a new line for a product whose SKU is NULL. */
  predicate NullSkuNewLine(c: Cart, req: AddItemRequest, p: ProductRecord) {
    IndexOf(c.items, req.product_id).None? && p.sku.None?
  }

  /** `add_item` as written: 404 for an unknown cart or a product the lookup
      did not find. A product already in the cart has its line grown. A new line
      is built with the product's SKU column; when that column is NULL the
      string field of the cart line rejects it and the request fails with 500. */
  function AddItem(carts: Carts, cartId: string, req: AddItemRequest,
                   product: Option<ProductRecord>): (r: Result<Reply, HttpError>)
    ensures cartId !in carts ==> r == Err(CartNotFound)
    ensures cartId in carts && product.None? ==> r == Err(HttpError(404, "Product not found"))
    ensures r.Ok? <==> cartId in carts && product.Some? && !NullSkuNewLine(carts[cartId], req, product.value)
    ensures cartId in carts && product.Some? && NullSkuNewLine(carts[cartId], req, product.value) ==>
      r == Err(InternalError)
    ensures r.Ok? ==> r == AddItemSkuDefaulted(carts, cartId, req, product)
  {
    if cartId !in carts then Err(CartNotFound)
    else if product.None? then Err(HttpError(404, "Product not found"))
    else if NullSkuNewLine(carts[cartId], req, product.value) then Err(InternalError)
    else AddItemSkuDefaulted(carts, cartId, req, product)
  }

  /** `add_item` with a NULL SKU stored as the empty string, as the default
      passed to `product.get` evidently intends: 404 for an unknown cart or
      product, and otherwise the cart's lines become `AddLine` of the request. */
  function AddItemSkuDefaulted(carts: Carts, cartId: string, req: AddItemRequest,
                               product: Option<ProductRecord>): (r: Result<Reply, HttpError>)
    ensures cartId !in carts ==> r == Err(CartNotFound)
    ensures cartId in carts && product.None? ==> r == Err(HttpError(404, "Product not found"))
    ensures r.Ok? <==> cartId in carts && product.Some?
    ensures r.Ok? ==>
      var c := carts[cartId];
      && r.value.carts == carts[cartId := c.(items := AddLine(c.items, req.product_id, product.value, req.quantity))]
      && r.value.body == Message(if IndexOf(c.items, req.product_id).Some? then "Item quantity updated"
                                 else "Item added", cartId)
  {
    if cartId !in carts then Err(CartNotFound)
    else if product.None? then Err(HttpError(404, "Product not found"))
    else
      var c := carts[cartId];
      var merged := IndexOf(c.items, req.product_id).Some?;
      var items := AddLine(c.items, req.product_id, product.value, req.quantity);
      Ok(Reply(carts[cartId := c.(items := items)],
               Message(if merged then "Item quantity updated" else "Item added", cartId)))
  }

  /** A product without a SKU cannot be put into a cart it is not already in:
      the request fails with 500, where storing the empty string would have
      added the line. */
  lemma NullSkuRejected(carts: Carts, cartId: string, req: AddItemRequest, p: ProductRecord)
    requires cartId in carts && p.sku.None? && IndexOf(carts[cartId].items, req.product_id).None?
    ensures AddItem(carts, cartId, req, Some(p)) == Err(InternalError)
    ensures var r := AddItemSkuDefaulted(carts, cartId, req, Some(p));
      r.Ok? && r.value.body == Message("Item added", cartId)
      && r.value.carts[cartId].items[|carts[cartId].items|].product_sku == ""
  {
  }

  // ------------------------------------------------------------ remove_item

  /** The cart's lines without any line of product `pid`, in their order. */
  function RemoveLines(items: seq<CartItem>, pid: string): (r: seq<CartItem>)
    ensures |r| <= |items|
    ensures forall i :: 0 <= i < |r| ==> r[i].product_id != pid
  {
    if |items| == 0 then []
    else
      var rest := RemoveLines(items[1..], pid);
      if items[0].product_id == pid then rest else [items[0]] + rest
  }

  /** Removal keeps exactly the lines of the other products. */
  lemma {:induction false} RemoveLinesMembers(items: seq<CartItem>, pid: string)
    ensures forall x :: x in RemoveLines(items, pid) <==> x in items && x.product_id != pid
  {
    if |items| > 0 {
      RemoveLinesMembers(items[1..], pid);
      assert forall x :: x in items <==> x == items[0] || x in items[1..];
    }
  }

  /** Removal empties that product and keeps every other product's units. */
  lemma {:induction false} RemoveLinesQuantity(items: seq<CartItem>, pid: string, x: string)
    ensures QuantityOf(RemoveLines(items, pid), x) == if x == pid then 0 else QuantityOf(items, x)
  {
    if |items| > 0 {
      RemoveLinesQuantity(items[1..], pid, x);
      if items[0].product_id != pid {
        assert ([items[0]] + RemoveLines(items[1..], pid))[1..] == RemoveLines(items[1..], pid);
      }
    }
  }

  /** With unique ids, removal cuts exactly the one line out and keeps the order. */
  lemma {:induction false} RemoveLinesSplice(items: seq<CartItem>, pid: string)
    requires UniqueIds(items)
    ensures IndexOf(items, pid).None? ==> RemoveLines(items, pid) == items
    ensures IndexOf(items, pid).Some? ==>
      var k := IndexOf(items, pid).value;
      RemoveLines(items, pid) == items[..k] + items[k + 1..]
  {
    if |items| > 0 {
      var rest := items[1..];
      TailUnique(items);
      RemoveLinesSplice(rest, pid);
      if items[0].product_id == pid {
        HeadNotInTail(items);
        assert RemoveLines(items, pid) == RemoveLines(rest, pid) == rest;
      } else {
        assert RemoveLines(items, pid) == [items[0]] + RemoveLines(rest, pid);
        match IndexOf(rest, pid)
        case None =>
          assert [items[0]] + rest == items;
        case Some(k) =>
          assert IndexOf(items, pid) == Some(k + 1);
          assert rest[..k] == items[1..k + 1];
          assert rest[k + 1..] == items[k + 2..];
          assert [items[0]] + items[1..k + 1] == items[..k + 1];
      }
    }
  }

  lemma TailUnique(items: seq<CartItem>)
    requires |items| > 0 && UniqueIds(items)
    ensures UniqueIds(items[1..])
  {
    forall i, j | 0 <= i < j < |items[1..]|
      ensures items[1..][i].product_id != items[1..][j].product_id
    {
      assert items[1..][i] == items[i + 1] && items[1..][j] == items[j + 1];
    }
  }

  lemma HeadNotInTail(items: seq<CartItem>)
    requires |items| > 0 && UniqueIds(items)
    ensures IndexOf(items[1..], items[0].product_id).None?
  {
    forall j | 0 <= j < |items[1..]|
      ensures items[1..][j].product_id != items[0].product_id
    {
      assert items[1..][j] == items[j + 1];
    }
  }

  lemma RemoveLinesKeepsUnique(items: seq<CartItem>, pid: string)
    requires UniqueIds(items)
    ensures UniqueIds(RemoveLines(items, pid))
  {
    RemoveLinesSplice(items, pid);
  }

  /** `remove_item`: drops every line of that product; unknown carts are 404. */
  function RemoveItem(carts: Carts, cartId: string, pid: string): (r: Result<Reply, HttpError>)
    ensures cartId !in carts ==> r == Err(CartNotFound)
    ensures r.Ok? <==> cartId in carts
    ensures r.Ok? ==>
      && r.value.carts == carts[cartId := carts[cartId].(items := RemoveLines(carts[cartId].items, pid))]
      && r.value.body == Message("Item removed", cartId)
  {
    if cartId !in carts then Err(CartNotFound)
    else
      var c := carts[cartId];
      Ok(Reply(carts[cartId := c.(items := RemoveLines(c.items, pid))], Message("Item removed", cartId)))
  }

  // ------------------------------------------------------------ apply_discount

  /** The cart with the found discount recorded on it; a zero cap counts as none. */
  function WithDiscount(c: Cart, d: DiscountRecord): Cart {
    c.(discount_code := Some(d.code), discount_type := Some(d.kind), discount_value := Some(d.value),
       max_discount := if Discounts.HasCap(d) then d.max_discount else None)
  }

  /** `apply_discount`: looks the code up among the tenant's active discounts,
      then refuses an exhausted code or a cart below the minimum purchase. */
  function ApplyDiscountCode(carts: Carts, cartId: string, req: ApplyDiscountRequest,
                             table: Discounts.Table): (r: Result<Reply, HttpError>)
    ensures cartId !in carts ==> r == Err(CartNotFound)
    ensures cartId in carts ==>
      var c := carts[cartId];
      var found := Discounts.Lookup(table, c.tenant_id, req.discount_code);
      && (found.None? ==> r == Err(HttpError(404, "Discount code not found or inactive")))
      && (found.Some? && Discounts.UsageExhausted(found.value) ==>
            r == Err(HttpError(400, "Discount usage limit reached")))
      && (found.Some? ==>
            (r.Ok? <==> !Discounts.UsageExhausted(found.value)
                        && Engine.Subtotal(c.items) >= found.value.min_purchase))
      && (r.Ok? ==> r.value == Reply(carts[cartId := WithDiscount(c, found.value)],
                                     DiscountApplied(found.value.code)))
  {
    if cartId !in carts then Err(CartNotFound)
    else
      var c := carts[cartId];
      match Discounts.Lookup(table, c.tenant_id, req.discount_code)
      case None => Err(HttpError(404, "Discount code not found or inactive"))
      case Some(d) =>
        if Discounts.UsageExhausted(d) then Err(HttpError(400, "Discount usage limit reached"))
        else if Engine.Subtotal(c.items) < d.min_purchase then Err(HttpError(400, "Minimum purchase required"))
        else Ok(Reply(carts[cartId := WithDiscount(c, d)], DiscountApplied(d.code)))
  }

  /** The validity window `validate_discount` checks and `apply_discount` skips. */
  predicate InWindow(d: DiscountRecord, now: Timestamp) {
    (d.valid_from.None? || d.valid_from.value <= now) && (d.valid_until.None? || now <= d.valid_until.value)
  }

  /** An expired code is refused by `validate_discount` yet attached to the
      cart by `apply_discount`. */
  lemma ExpiredCodeAccepted()
    ensures var d := DiscountRecord("d1", "t1", "LAMA", "Old promo", FIXED, 5000.0, 0.0, None, None, 0,
                                    None, Some(100), true);
      var carts := map["c1" := NewCart("c1", CartRequest("t1", "u1"), 0)];
      && ApplyDiscountCode(carts, "c1", ApplyDiscountRequest("LAMA"), [d]).Ok?
      && Discounts.ValidateDiscount([d], "LAMA", "t1", 0.0, 200) == Err(HttpError(400, "Discount expired"))
  {
    var d := DiscountRecord("d1", "t1", "LAMA", "Old promo", FIXED, 5000.0, 0.0, None, None, 0,
                            None, Some(100), true);
    assert Discounts.ActiveMatches([d], "t1", "LAMA") == [d];
  }

  /** `apply_discount` with the validity checks of `validate_discount` added,
      in the same order and with the same messages: the cart accepts exactly
      the codes the validation endpoint accepts for the cart's subtotal. */
  function ApplyDiscountCodeChecked(carts: Carts, cartId: string, req: ApplyDiscountRequest,
                                    table: Discounts.Table, now: Timestamp): (r: Result<Reply, HttpError>)
    ensures cartId !in carts ==> r == Err(CartNotFound)
    ensures cartId in carts ==>
      var c := carts[cartId];
      && (r.Ok? <==> Discounts.ValidateDiscount(table, req.discount_code, c.tenant_id, Engine.Subtotal(c.items), now).Ok?)
      && (Discounts.Lookup(table, c.tenant_id, req.discount_code).None? ==>
            r == Err(HttpError(404, "Discount code not found or inactive")))
    ensures cartId in carts && r.Err? && r.error.status == 400 ==>
      var c := carts[cartId];
      r.error == Discounts.ValidateDiscount(table, req.discount_code, c.tenant_id, Engine.Subtotal(c.items), now).error
    ensures r.Ok? ==> r == ApplyDiscountCode(carts, cartId, req, table)
  {
    if cartId !in carts then Err(CartNotFound)
    else
      var c := carts[cartId];
      match Discounts.Lookup(table, c.tenant_id, req.discount_code)
      case None => Err(HttpError(404, "Discount code not found or inactive"))
      case Some(d) =>
        if d.valid_from.Some? && d.valid_from.value > now then Err(HttpError(400, "Discount not yet valid"))
        else if d.valid_until.Some? && d.valid_until.value < now then Err(HttpError(400, "Discount expired"))
        else ApplyDiscountCode(carts, cartId, req, table)
  }

  /** Inside a code's validity window the checked handler behaves exactly as
      the original one. */
  lemma CheckedAgreesInsideWindow(carts: Carts, cartId: string, req: ApplyDiscountRequest,
                                  table: Discounts.Table, now: Timestamp)
    requires cartId in carts
    requires var found := Discounts.Lookup(table, carts[cartId].tenant_id, req.discount_code);
      found.Some? ==> InWindow(found.value, now)
    ensures ApplyDiscountCodeChecked(carts, cartId, req, table, now) == ApplyDiscountCode(carts, cartId, req, table)
  {
  }

  // ------------------------------------------------------------ apply_loyalty

  /** `apply_loyalty`: refuses to redeem more points than the customer holds.
      The row always carries the `member_type` column, so the `"REGULAR"`
      default never applies: a NULL tier reaches the enum conversion, which
      raises, and the request fails with 500. */
  function ApplyLoyalty(carts: Carts, cartId: string, req: ApplyLoyaltyRequest,
                        customer: Option<CustomerRecord>): (r: Result<Reply, HttpError>)
    ensures cartId !in carts ==> r == Err(CartNotFound)
    ensures cartId in carts && customer.None? ==> r == Err(HttpError(404, "Customer not found"))
    ensures cartId in carts && customer.Some? && req.points_to_redeem > customer.value.points ==>
      r == Err(HttpError(400, "Insufficient points"))
    ensures cartId in carts && customer.Some? && customer.value.member_type.None? ==>
      (req.points_to_redeem <= customer.value.points ==> r == Err(InternalError))
    ensures cartId in carts && customer.Some? ==>
      (r.Ok? <==> req.points_to_redeem <= customer.value.points && customer.value.member_type.Some?)
    ensures r.Ok? ==>
      var cu := customer.value;
      && cu.member_type.Some?
      && r.value.body == LoyaltyApplied(cu.name, req.points_to_redeem, cu.points - req.points_to_redeem)
      && r.value.body.points_remaining >= 0
      && r.value.carts == carts[cartId := carts[cartId].(customer_id := Some(cu.id),
                                                          points_redeemed := req.points_to_redeem,
                                                          member_type := cu.member_type.value)]
  {
    if cartId !in carts then Err(CartNotFound)
    else if customer.None? then Err(HttpError(404, "Customer not found"))
    else
      var cu := customer.value;
      if req.points_to_redeem > cu.points then Err(HttpError(400, "Insufficient points"))
      else if cu.member_type.None? then Err(InternalError)
      else
        var c := carts[cartId];
        Ok(Reply(carts[cartId := c.(customer_id := Some(cu.id), points_redeemed := req.points_to_redeem,
                                    member_type := cu.member_type.value)],
                 LoyaltyApplied(cu.name, req.points_to_redeem, cu.points - req.points_to_redeem)))
  }

  /** A customer row whose tier column is NULL is refused with 500, even when
      the points are covered. */
  lemma NullTierRejected(carts: Carts, cartId: string, cu: CustomerRecord)
    requires cartId in carts && cu.member_type.None? && cu.points >= 0
    ensures ApplyLoyalty(carts, cartId, ApplyLoyaltyRequest(cu.id, 0), Some(cu)) == Err(InternalError)
  {
  }

  // ------------------------------------------------------------ breakdown

  /** The engine's breakdown of a cart with the cart's own choices. */
  function CartBreakdown(c: Cart): Result<FinancialBreakdown, Engine.MarginError> {
    Engine.Breakdown(Settings, c.items, c.discount_type, c.discount_value, c.max_discount,
                     c.points_redeemed, c.member_type, true)
  }

  /** A margin refusal is a 400; the division by zero is not caught (a 500). */
  function MarginHttpError(e: Engine.MarginError): (h: HttpError)
    ensures h.status == (if e.ZeroRevenue? then 500 else 400)
  {
    match e
    case MarginBelowMinimum(_) => HttpError(400, "Margin below minimum")
    case ZeroRevenue => HttpError(500, "Division by zero")
  }

  /** `get_breakdown`: 404 for an unknown cart, 400 for an empty one, otherwise
      the engine's breakdown or its margin refusal. */
  function GetBreakdown(carts: Carts, cartId: string): (r: Result<FinancialBreakdown, HttpError>)
    ensures cartId !in carts ==> r == Err(CartNotFound)
    ensures cartId in carts && carts[cartId].items == [] ==> r == Err(CartEmpty)
    ensures r.Ok? <==> cartId in carts && carts[cartId].items != [] && CartBreakdown(carts[cartId]).Ok?
    ensures r.Ok? ==> r.value == CartBreakdown(carts[cartId]).value
    ensures r.Ok? ==>
      && r.value.total_discount + r.value.subtotal_after_discount == r.value.gross_sales
      && r.value.grand_total == r.value.dpp + r.value.tax_amount
      && r.value.dpp >= 0.0
  {
    if cartId !in carts then Err(CartNotFound)
    else
      var c := carts[cartId];
      if c.items == [] then Err(CartEmpty)
      else
        match CartBreakdown(c)
        case Ok(b) => Ok(b)
        case Err(e) => Err(MarginHttpError(e))
  }

  /** A freshly created cart has nothing to break down. */
  lemma NewCartBreakdownIsEmpty(carts: Carts, cartId: string, req: CartRequest, now: Timestamp)
    ensures GetBreakdown(CreateCart(carts, cartId, req, now).carts, cartId) == Err(CartEmpty)
  {
  }

  // ------------------------------------------------------------ finalize

  /** Cash was handed over: `amount_received` is present and non-zero. */
  predicate Tendered(req: FinalizeTransactionRequest) {
    req.amount_received.Some? && req.amount_received.value != 0.0
  }

  /** `finalize_transaction`: breaks the cart down, refuses cash short of the
      grand total, records PAID for cash and PENDING otherwise, and deletes the
      cart. Persisting the transaction is left to the database. */
  function FinalizeTransaction(carts: Carts, cartId: string, req: FinalizeTransactionRequest,
                               transactionId: string, invoiceNo: string): (r: Result<Reply, HttpError>)
    ensures cartId !in carts ==> r == Err(CartNotFound)
    ensures cartId in carts && carts[cartId].items == [] ==> r == Err(CartEmpty)
    ensures r.Ok? ==> r.value.carts == carts - {cartId} && r.value.body.Finalized?
    ensures r.Ok? ==>
      var t := r.value.body.transaction;
      && Ok(t.breakdown) == GetBreakdown(carts, cartId)
      && t.payment_type == req.payment_type
      && t.payment_status == (if req.payment_type == CASH then PAID else PENDING)
      && t.change_amount >= 0.0
      && t.id == transactionId && t.invoice_no == invoiceNo
    ensures r.Ok? && req.payment_type == CASH && Tendered(req) ==>
      var t := r.value.body.transaction;
      req.amount_received.value >= t.breakdown.grand_total
      && t.change_amount == req.amount_received.value - t.breakdown.grand_total
    ensures r.Ok? && !(req.payment_type == CASH && Tendered(req)) ==>
      r.value.body.transaction.change_amount == 0.0
    ensures GetBreakdown(carts, cartId).Ok? && req.payment_type == CASH && Tendered(req) ==>
      (r.Ok? <==> req.amount_received.value >= GetBreakdown(carts, cartId).value.grand_total)
    ensures GetBreakdown(carts, cartId).Ok? && !(req.payment_type == CASH && Tendered(req)) ==> r.Ok?
    ensures GetBreakdown(carts, cartId).Err? ==> r == Err(GetBreakdown(carts, cartId).error)
  {
    match GetBreakdown(carts, cartId)
    case Err(e) => Err(e)
    case Ok(b) =>
      if req.payment_type == CASH && Tendered(req) && req.amount_received.value < b.grand_total then
        Err(HttpError(400, "Insufficient payment amount"))
      else
        var change := if req.payment_type == CASH && Tendered(req)
                      then req.amount_received.value - b.grand_total else 0.0;
        var status := if req.payment_type == CASH then PAID else PENDING;
        Ok(Reply(carts - {cartId},
                 Finalized(TransactionResponse(transactionId, invoiceNo, b, req.payment_type, status, change))))
  }

  // ------------------------------------------------------------ invariant

  /** Every handler keeps the cart map well formed (for `add_item`, when the
      product record is the one its id was looked up by). */
  lemma HandlersKeepWellFormed(carts: Carts, cartId: string)
    requires WellFormed(carts)
    ensures forall req: AddItemRequest, p: ProductRecord :: p.id == req.product_id ==>
      var r := AddItem(carts, cartId, req, Some(p)); r.Ok? ==> WellFormed(r.value.carts)
    ensures forall req: AddItemRequest, p: ProductRecord :: p.id == req.product_id ==>
      var r := AddItemSkuDefaulted(carts, cartId, req, Some(p)); r.Ok? ==> WellFormed(r.value.carts)
    ensures forall pid :: var r := RemoveItem(carts, cartId, pid); r.Ok? ==> WellFormed(r.value.carts)
    ensures forall req, table :: var r := ApplyDiscountCode(carts, cartId, req, table);
      r.Ok? ==> WellFormed(r.value.carts)
    ensures forall req, table, now :: var r := ApplyDiscountCodeChecked(carts, cartId, req, table, now);
      r.Ok? ==> WellFormed(r.value.carts)
    ensures forall req, cu :: var r := ApplyLoyalty(carts, cartId, req, cu);
      r.Ok? ==> WellFormed(r.value.carts)
    ensures forall req, tid, inv :: var r := FinalizeTransaction(carts, cartId, req, tid, inv);
      r.Ok? ==> WellFormed(r.value.carts)
  {
    if cartId in carts {
      var c := carts[cartId];
      forall req: AddItemRequest, p: ProductRecord | p.id == req.product_id
        ensures UniqueIds(AddLine(c.items, req.product_id, p, req.quantity))
      {
        AddLineKeepsUnique(c.items, p, req.quantity);
      }
      forall pid
        ensures UniqueIds(RemoveLines(c.items, pid))
      {
        RemoveLinesKeepsUnique(c.items, pid);
      }
    }
  }
}
